=== FILE: README.md ===
# MigrantsExhibition automaton core in Dafny

MigrantsExhibition is a generative installation. It draws a population of
sprite "cells" that evolves under Conway's Game of Life (birth on 3
neighbours, survival on 2 or 3). Its population is steered by a live sound
level. This project models the automaton core of the program, and nothing
else, as pure Dafny functions and methods, and proves properties of them.

There are two engines in the source:

- `Layer` (`Src/Layer.cs`) keeps a `width` x `height` grid of optional
  occupants and double-buffers it. Neighbours are counted on the torus.
  `AdjustCellPopulation` kills or revives random slots until the live count
  matches a sound-driven target.
- `GameOfLife` (`Src/GameOfLife.cs`) is the engine the application runs. It
  keeps a list of free-moving cells. Each cell is mapped to an integer key by
  truncating its position divided by the cell size. One generation counts the
  eight wrapped neighbour keys of every cell, keeps the cells with 2 or 3
  neighbours, and spawns a cell at every untaken key counted exactly 3 times.
  It then tops the population up to a fifth of the initial count and drops
  cells whose death animation has finished. Cells are drawn in order of depth.

Around these sit `Cell` (`Src/Cell.cs`), which holds the birth and death
animations, the wrap-around and the opacity. `Game1` (`Game1.cs`) loads 50
seed cells and runs a generation each time its timer reaches the generation
interval.

The modules follow the program:

- `Wrappers`: `Option`, `Result` and the errors the source throws.
- `Seqs`: list helpers.
- `Numerics`: C#'s truncating `(int)` cast and `%`, clamping and `Lerp`.
- `Lattice`: grid dimensions and the wrapped offsets.
- `Cells`, `Layer`, `GameOfLife` and `Game`: one per source file.

Randomness becomes parameters. Every `random.Next`/`NextDouble` is a value
drawn from a function the caller supplies (`pick`, `born`, `spawn`,
`extras`, `draws`), so each property holds for every sequence of draws.

Two results tie the engines to the textbook rule:

- `Layer.StepIsLife` proves that the double-buffered step keeps or fills a
  slot exactly when B3/S23 holds for the number of live slots among its eight
  neighbours on the torus.
- `GameOfLife.GenerationIsLife` proves the same of the list engine. Suppose
  the cells' keys are distinct and inside the grid, and the grid is at least
  3 x 3. Then the keys present after a generation are exactly the live
  positions of a `Layer` step applied to the grid the keys occupy.

A quirk of the list engine falls out of the proofs. A cell whose key lies
outside the grid is never given a neighbour count, because every counted key
is wrapped into the grid. So that cell always dies (`GameOfLife.StrayCellDies`).
Its neighbours still count it at its wrapped position. This happens to a cell
in the strip to the right of or below the last whole grid column or row.

## Model

| member | source | states |
|---|---|---|
| Cells.NewCell | MigrantsExhibition/Src/Cell.cs:40-55 | a new cell has its depth clamped into [0, 1], scale 0, is born and not dying, with birth progress 0 and death progress 1 |
| Cells.Animate | MigrantsExhibition/Src/Cell.cs:116-139 | the zoom-in advances the birth scale by the increment, caps it at 1 and clears `IsBorn` exactly when the cap is reached; the zoom-out lowers the death scale by the decrement, floored at 0; dying is never undone and nothing else changes |
| Cells.BirthProgress | MigrantsExhibition/Src/Cell.cs:117-127 | while still being born after `n` updates, the birth scale has grown by exactly `n` increments |
| Cells.BirthCompletes | MigrantsExhibition/Src/Cell.cs:117-127 | once `n` increments reach 1 the birth animation has ended, at birth scale 1 |
| Cells.FinishedBirthStaysFinished | MigrantsExhibition/Src/Cell.cs:117-127 | a birth animation that has ended leaves the birth scale at exactly 1 |
| Cells.DeathProgress | MigrantsExhibition/Src/Cell.cs:129-139 | while the death scale is positive after `n` updates it has fallen by exactly `n` decrements |
| Cells.DeathCompletes | MigrantsExhibition/Src/Cell.cs:129-139 | once `n` decrements reach 1 the death scale is 0 |
| Cells.Die | MigrantsExhibition/Src/Cell.cs:174-177 | `Die` sets the dying flag and changes nothing else |
| Cells.DyingIsPermanent | MigrantsExhibition/Src/Cell.cs:129-139 | a dying cell stays dying through any number of updates, and `Die` on it is the identity |
| Cells.WrapAround | MigrantsExhibition/Src/Cell.cs:142-172 | a coordinate inside [0, bound] is unchanged; one within a bound outside is moved into [0, bound]; every result differs from the input by -bound, 0 or +bound |
| Cells.Opacity | MigrantsExhibition/Src/Cell.cs:198 | opacity lies in [0.5, 1] for depths in [0, 1]; it is 1 at depth 0 and 0.5 at depth 1 |
| Cells.OpacityDecreasesWithDepth | MigrantsExhibition/Src/Cell.cs:198 | deeper cells are never more opaque |
| Cells.DrawScale | MigrantsExhibition/Src/Cell.cs:191-195 | a cell that is not being born is drawn at its own scale |
| Cells.DrawScaleWithin | MigrantsExhibition/Src/Cell.cs:191-195 | a born cell is drawn shrunk by its birth progress, so the draw scale of a valid cell stays within [0, scale] |
| Lattice.GridDims | MigrantsExhibition/Src/Layer.cs:39-40 | the grid dimensions are the viewport sizes divided by the truncated cell size; a cell size below 1 is a division by zero |
| Lattice.Wrap | MigrantsExhibition/Src/Layer.cs:179-183 | `(c + d + n) % n` with C#'s remainder is the coordinate modulo `n` when `c + d + n` is not negative, and is not positive otherwise |
| Lattice.WrapNear | MigrantsExhibition/Src/Layer.cs:179-183 | for an in-grid coordinate and a step of at most one, the wrap adds or subtracts the dimension only at the edges |
| Lattice.WrapInjective | MigrantsExhibition/Src/Layer.cs:177-183 | on a dimension of at least 3 the three steps -1, 0, +1 reach three different coordinates |
| Layer.InitializeGrid | MigrantsExhibition/Src/Layer.cs:36-44 | the grid is sized by the viewport divided by the truncated cell size and starts empty; a cell size below 1 throws |
| Layer.NeighbourPositions | MigrantsExhibition/Src/Layer.cs:177-192 | the eight wrapped offsets of a slot, in loop order, all inside the grid |
| Layer.CountLiveNeighbors | MigrantsExhibition/Src/Layer.cs:171-196 | the double loop counts the occupied slots among the eight wrapped neighbours, at most 8 |
| Layer.NeighbourPositionsAreTorusNeighbours | MigrantsExhibition/Src/Layer.cs:177-192 | on a grid of at least 3 x 3 the eight wrapped offsets are distinct and are exactly the slots adjacent on the torus |
| Layer.NeighbourCountIsTorusCount | MigrantsExhibition/Src/Layer.cs:171-196 | the loop's count equals the number of live torus neighbours, of which there are 8, excluding the slot itself |
| Layer.CornersAreNeighbours | MigrantsExhibition/Src/Layer.cs:179-183 | the slot (0, 0) counts (W-1, H-1) as a neighbour and vice versa |
| Layer.SingleSlotCountsItself | MigrantsExhibition/Src/Layer.cs:177-192 | on a 1 x 1 grid an occupied slot counts itself eight times |
| Layer.NextSlot | MigrantsExhibition/Src/Layer.cs:120-164 | the next value of a slot is occupied exactly when B3/S23 holds for its count; a survivor keeps its occupant and a birth gets the new cell |
| Layer.Step | MigrantsExhibition/Src/Layer.cs:111-169 | the next grid has the same size and every slot is computed from the previous grid only |
| Layer.ApplyRules | MigrantsExhibition/Src/Layer.cs:111-169 | the step throws exactly when the texture list is empty and some empty slot has exactly 3 live neighbours; otherwise clearing, filling and swapping the buffers leaves the step of the old grid in front and the old grid behind, whatever the back buffer held |
| Layer.ApplyColumn | MigrantsExhibition/Src/Layer.cs:118-161 | one column of the step: each slot gets its next value, and the first birth throws when the texture list is empty |
| Layer.StepIsLife | MigrantsExhibition/Src/Layer.cs:111-169 | on a grid of at least 3 x 3 a slot is occupied after a step exactly when Conway's rule holds for its live torus neighbours |
| Layer.StepOccupants | MigrantsExhibition/Src/Layer.cs:125-153 | an occupied slot after a step holds its previous occupant, or holds a new cell on a previously empty slot with exactly 3 neighbours |
| Layer.EmptyStaysEmpty | MigrantsExhibition/Src/Layer.cs:111-169 | a step of an empty grid is empty |
| Layer.BlinkerFlips | MigrantsExhibition/Src/Layer.cs:111-169 | a horizontal line of three away from the edges becomes the vertical line of three through its centre, and nothing else is alive |
| Layer.LivePositions | MigrantsExhibition/Src/Layer.cs:52-68 | the collected live positions are distinct and are exactly the occupied slots |
| Layer.DeadPositions | MigrantsExhibition/Src/Layer.cs:52-68 | the collected dead positions are distinct and are exactly the empty slots |
| Layer.PositionCounts | MigrantsExhibition/Src/Layer.cs:52-70 | the two lists count the live and the dead slots, which together make up width x height |
| Layer.DesiredLive | MigrantsExhibition/Src/Layer.cs:48-49 | the target truncates total x (intensity / 100); it is within [0, total] for intensities in [0, 100] and not positive below 0 |
| Layer.HalfOfGrid | MigrantsExhibition/Src/Layer.cs:33 | the constructor's 50% intensity asks for half the slots, rounded down |
| Layer.KillCells | MigrantsExhibition/Src/Layer.cs:72-83 | killing removes `toKill` live slots, or all of them if there are fewer, and never fills a slot |
| Layer.ReviveCells | MigrantsExhibition/Src/Layer.cs:84-107 | reviving throws exactly when a revival is due, an empty slot exists and the texture list is empty; otherwise it fills `toRevive` empty slots, or all of them if there are fewer, each with a drawn new occupant, and empties no slot |
| Layer.Shrink | MigrantsExhibition/Src/Layer.cs:72-83 | above the target, the live count drops to the target clamped into [0, width x height] and only kills happen |
| Layer.Grow | MigrantsExhibition/Src/Layer.cs:84-108 | below the target, an empty texture list throws when an empty slot exists; otherwise the live count rises to the target clamped into [0, width x height] and only revivals happen |
| Layer.AdjustCellPopulation | MigrantsExhibition/Src/Layer.cs:46-109 | the adjustment throws exactly when the live count is below the target, an empty slot exists and the texture list is empty; otherwise the live count is the target clamped into [0, width x height], only kills happen when above the target and only revivals when below |
| Layer.NewLayer | MigrantsExhibition/Src/Layer.cs:23-34 | the constructor throws a division by zero for a cell size below 1, and with an empty texture list exactly when the grid has at least two slots; otherwise it sizes the grid from the viewport and fills exactly half of it, rounded down |
| GameOfLife.NewEngine | MigrantsExhibition/Src/GameOfLife.cs:26-40 | a missing or empty texture list is rejected; otherwise the engine starts with no cells and keeps the initial count |
| GameOfLife.Initialize | MigrantsExhibition/Src/GameOfLife.cs:42-51 | a missing list is rejected; otherwise the list replaces the cells and nothing else changes |
| GameOfLife.CellKey | MigrantsExhibition/Src/GameOfLife.cs:85-86 | a cell's key is its position divided by the cell size, truncated toward zero and not wrapped: a non-negative coordinate lands in the square that contains it, and a coordinate less than one cell left of or above the origin also gets key 0 |
| GameOfLife.NeighbourKeys | MigrantsExhibition/Src/GameOfLife.cs:83-111 | the counting loop visits eight wrapped keys per cell |
| GameOfLife.Tally | MigrantsExhibition/Src/GameOfLife.cs:104-108 | the dictionary holds exactly the visited keys, each with the number of times it was visited |
| GameOfLife.CentreKey | MigrantsExhibition/Src/GameOfLife.cs:155-159 | a cell spawned at the centre of a key with non-negative coordinates maps back to that key |
| GameOfLife.AssignDepth | MigrantsExhibition/Src/GameOfLife.cs:192-205 | the depth is 0.1, 0.3, 0.6 or 0.9, chosen by the thresholds 0.1, 0.3 and 0.6 on the draw |
| GameOfLife.AssignDepthMonotone | MigrantsExhibition/Src/GameOfLife.cs:192-205 | a larger draw never gives a nearer depth |
| GameOfLife.Survivors | MigrantsExhibition/Src/GameOfLife.cs:113-143 | the surviving list keeps, in order and with multiplicity, exactly the cells whose key was counted 2 or 3 times |
| GameOfLife.BirthKeys | MigrantsExhibition/Src/GameOfLife.cs:145-156 | the birth keys are distinct and are exactly the keys counted 3 times that no current cell occupies |
| GameOfLife.Newborn | MigrantsExhibition/Src/GameOfLife.cs:158-172 | a newborn sits at the centre of its key, is born and not dying, and has a valid texture and one of the four depths |
| GameOfLife.Newborns | MigrantsExhibition/Src/GameOfLife.cs:146-181 | one newborn per birth key, none without textures |
| GameOfLife.Generation | MigrantsExhibition/Src/GameOfLife.cs:113-188 | every cell of the next list is an old cell or a valid newborn, born and not dying, and there are no newborns without textures; an old cell that is not being born stays exactly when its own key was visited 2 or 3 times |
| GameOfLife.ApplyRules | MigrantsExhibition/Src/GameOfLife.cs:78-190 | a generation throws exactly when there are cells and the cell size truncates to 0 or exceeds the viewport; it keeps the bookkeeping and brings no dying cell in |
| GameOfLife.EngineGrid | MigrantsExhibition/Src/GameOfLife.cs:98-102 | the wrap divides by the grid size, which is zero exactly when the cell size is below 1 or larger than the viewport |
| GameOfLife.GenerationNoneDying | MigrantsExhibition/Src/GameOfLife.cs:117-188 | a generation of cells none of which is dying yields no dying cell |
| GameOfLife.KeysAroundAreTorusNeighbours | MigrantsExhibition/Src/GameOfLife.cs:88-104 | the eight wrapped keys of an in-range key are distinct and are its torus neighbours |
| GameOfLife.NeighbourKeysCount | MigrantsExhibition/Src/GameOfLife.cs:83-111 | with all keys in range, a key is visited once for each cell on a neighbouring key |
| GameOfLife.TallyIsNeighbourCount | MigrantsExhibition/Src/GameOfLife.cs:83-111 | with distinct in-range keys, the dictionary's count of a key is the number of occupied torus neighbours |
| GameOfLife.GenerationIsLife | MigrantsExhibition/Src/GameOfLife.cs:78-190 | with distinct in-range keys on a grid of at least 3 x 3, the keys after a generation are exactly the live positions of a Life step on the occupied grid |
| GameOfLife.StrayCellDies | MigrantsExhibition/Src/GameOfLife.cs:117-142 | when no key lies a whole grid width left of or height above the origin (so every wrapped remainder is taken of a non-negative number), a cell whose key lies outside the grid is never counted and so never survives |
| GameOfLife.MinimumCells | MigrantsExhibition/Src/GameOfLife.cs:209 | `(int)(n * 0.2)` is `n / 5` for non-negative `n`, and truncates toward zero otherwise |
| GameOfLife.Extra | MigrantsExhibition/Src/GameOfLife.cs:223-245 | a top-up cell has a valid texture, sits at a whole-pixel position inside the viewport and is born |
| GameOfLife.ToppedUp | MigrantsExhibition/Src/GameOfLife.cs:207-251 | the list after the top-up keeps the cells as its prefix, reaches the minimum when textures exist, grows only to exactly the minimum, appends only drawn top-up cells and brings in no dying cell |
| GameOfLife.EnsureMinimumPopulation | MigrantsExhibition/Src/GameOfLife.cs:207-251 | the loop keeps the existing cells in place, grows a short list with textures to the minimum, appends only the drawn top-up cells, and builds exactly the `ToppedUp` list |
| GameOfLife.EnsureMinimumReachesMinimum | MigrantsExhibition/Src/GameOfLife.cs:207-251 | after topping up, a list with textures has at least the minimum, and no dying cell is added |
| GameOfLife.Removable | MigrantsExhibition/Src/GameOfLife.cs:258 | a cell is removed when it is dying and its scale has reached 0 or below; `RemoveDyingCells` and `Settle` state that exactly these cells go |
| GameOfLife.RemoveDyingCells | MigrantsExhibition/Src/GameOfLife.cs:253-269 | collecting and then removing one copy per collected cell leaves exactly the cells that are not dying at scale 0 or below, in order |
| GameOfLife.RemoveDyingNoOp | MigrantsExhibition/Src/GameOfLife.cs:253-269 | a list with no dying cell is left unchanged |
| GameOfLife.InsertByDepth | MigrantsExhibition/Src/GameOfLife.cs:274 | inserting into a depth-sorted list keeps it sorted and adds exactly that cell |
| GameOfLife.SortByDepth | MigrantsExhibition/Src/GameOfLife.cs:274 | the sorted list is ordered by depth and is a permutation of the cells |
| GameOfLife.SortStable | MigrantsExhibition/Src/GameOfLife.cs:274 | the sort is stable: the cells of each depth keep their list order |
| GameOfLife.DrawOrder | MigrantsExhibition/Src/GameOfLife.cs:271-280 | cells are drawn in ascending depth, each exactly once, equal depths in list order |
| GameOfLife.AnimateAll | MigrantsExhibition/Src/GameOfLife.cs:56-66 | every cell gets one animation step, in place, and none starts dying |
| GameOfLife.Update | MigrantsExhibition/Src/GameOfLife.cs:53-76 | an update throws exactly when a generation would. Otherwise a non-empty list becomes the settled `Generation` of its animated cells, and with no dying cells the result starts with that generation. An empty list only gets the top-up cells. The bookkeeping is kept, and with no dying cells and some textures at least the minimum population is left |
| GameOfLife.Settle | MigrantsExhibition/Src/GameOfLife.cs:71-75 | after topping up and removing, no removable cell is left and every cell that was not removable remains; with no dying cell nothing is removed, so the result is the topped-up list and the minimum holds when textures exist; the bookkeeping is kept |
| Game.SeedCell | MigrantsExhibition/Game1.cs:90-103 | a seed cell has a valid texture, a whole-pixel position inside the viewport, one of the four depths and no zoom-in |
| Game.Seeds | MigrantsExhibition/Game1.cs:90-104 | exactly 50 seed cells, the `i`-th built from the `i`-th draws |
| Game.LoadContent | MigrantsExhibition/Game1.cs:53-125 | an audio handler whose constructor throws makes the application exit with nothing built; with no textures it exits without an engine; otherwise the engine holds exactly the 50 seed cells `Seeds` draws, none born or dying, with the initial count 50, and a GUI whose constructor throws makes it exit with that engine in place |
| Game.SeededAboveMinimum | MigrantsExhibition/Game1.cs:86-106 | the seeded engine starts above its minimum of 10 cells |
| Game.Advance | MigrantsExhibition/Game1.cs:142-153 | one frame of the generation timer: it stays non-negative and below the interval, keeps all the elapsed time when no generation runs, and uses up at least one interval when one does |
| Game.Run | MigrantsExhibition/Game1.cs:142-153 | a run of frames runs at most one generation per frame, and an empty run leaves the timer alone |
| Game.RunBudget | MigrantsExhibition/Game1.cs:142-153 | over any run of frames, generations times the interval plus the final timer never exceed the starting timer plus the elapsed time; the timer stays in [0, interval) |
| Game.EveryFrameFires | MigrantsExhibition/Game1.cs:142-153 | frames that each last at least an interval each run a generation |
| Game.QuietRun | MigrantsExhibition/Game1.cs:142-153 | while the accumulated time stays below the interval no generation runs and the timer holds that time |
| Game.Tick | MigrantsExhibition/Game1.cs:127-190 | Escape exits and without audio nothing else changes. Below the interval only the timer moves. At the interval the engine becomes the result of `GameOfLife.Update` and the timer resets. If the update throws, the application exits, the timer is kept and the engine keeps its cells as the generation had already animated them. The timer invariant is preserved |
| Game.TickFollowsAdvance | MigrantsExhibition/Game1.cs:142-153 | when no generation throws, a frame leaves the timer `Advance` leaves, and the engine is updated exactly when `Advance` fires |
| Game.Ticks | MigrantsExhibition/Game1.cs:127-190 | one frame update per frame over a run of frames: the audio flag never changes and an exit request is never withdrawn |
| Game.NeverThrows | MigrantsExhibition/Src/GameOfLife.cs:98-99 | the cell sizes for which the grid-size division of a generation never divides by zero: at least 1 and no larger than the viewport |
| Game.TicksFollowRun | MigrantsExhibition/Game1.cs:142-153 | over a run of frames with a cell size that never throws, the game's timer is the one `Run` follows, and a run with no generation leaves the engine unchanged |
| Game.GameTimerInRange | MigrantsExhibition/Game1.cs:142-153 | over any run of frames with a cell size that never throws, the game's generation timer stays in [0, interval) |

## Left out

- The float motion of `Cell.Update` (vibration, acceleration, speed limits, position integration and the call to `WrapAround`) is left out. It uses constants missing from `Src/Constants.cs` and a per-cell `Random`. Cell direction and speed are not kept either.
- `Layer.Update` and `Layer.Draw` are left out. They only forward to the cells, and `Layer.Update` calls `Cell.Update` with two arguments where `Cell.Update` takes four. Layer occupants are opaque ids.
- Layer.NewLayer, Layer.AdjustCellPopulation, Layer.ReviveCells, Layer.Grow, Layer.ApplyRules, Layer.ApplyColumn: a null texture list throws a `NullReferenceException` where an empty one throws an `ArgumentOutOfRangeException`. Both are modelled as the texture count 0 with the one error `EmptyTextureList`. On a throw the grid is not returned, so the slots written before it are not modelled.
- `Constants.CellSize`, `BirthScaleIncrement`, `DeathScaleDecrement`, `GenerationInterval`, `NormalSoundIntensity`, `MidSoundIntensity` and `BaseSpeed` are referenced but not defined in `Src/Constants.cs`. So the cell size, the animation steps and the interval are parameters. Positivity is assumed only for the cell size and the steps.
- Layer.InitializeGrid: the cell size is required to be positive, so the negative case is not modelled. For a non-positive size, C# divides by zero when the size is in (-1, 0], since it truncates to 0. For a smaller size, the integer division gives a negative grid size, whose array allocation throws, or 0 when the size's magnitude exceeds the viewport, which builds an empty grid.
- Floating point is modelled as exact reals. `(int)` casts are modelled as truncation toward zero, and `%` as C#'s truncating remainder.
- The enumeration order of `neighborCounts` is taken to be insertion order. This only affects the order of newborns in the list.
- `Star`, `AudioHandler`, `GUI`, `ImageLoader`, `Utils`, `Program`, the FPS counter, logging and `Dispose` are not part of this model. The sound level and elapsed time are inputs; whether the audio handler exists is a flag.
- Game.Tick: an exception outside the generation step (for example from `GUI.Update`) is not modelled. `Exit()` is a flag; frames after it are not prevented.
- Game.LoadContent: only the audio handler's and the GUI's constructors are modelled as able to throw (`Devices`). The sprite batch, the image loader and the stars are taken to be built; the number of textures loaded is an input.
- `MaxCells`, `MinLiveCellsPercentage`, `MaxLiveCellsPercentage` and `GenerationsToCheckPopulation` are defined but unused by the code modelled here.
- Cells.DrawScale: `Cell.Draw` computes the draw scale but draws at the fixed cell size, so the scale never reaches the screen.
- Cells.Animate: the sound-driven assignments to `Scale` in `Cell.Update` (Cell.cs:90 and 97) run before the birth and death lerps and are left out. They depend on the sound level and on `MaxSize` and the texture size, which are not part of this model. So the model's `scale` is only the result of the lerps, not the program's `Scale`. In the model it is read by the birth and death lerps themselves, by `Cells.DrawScale` and by `GameOfLife.Removable`, so the left-out writes would change all three. But the draw scale never reaches the screen (`Cells.DrawScale`), and no dying cell stays in the list to be removed (`GameOfLife.RemoveDyingNoOp`).
- GameOfLife.ApplyRules: the `Die()` call on a cell that is dropped from the list is not kept, since the cell is unreachable afterwards. So dying cells never stay in the list, and `RemoveDyingCells` removes nothing in practice (`GameOfLife.RemoveDyingNoOp`).
- GameOfLife.GenerationIsLife: the equality with the Life step is proved only for distinct keys inside the grid. Cells sharing a key, or outside it, are handled by the model but the theorem says nothing about them.

Facts about the code that a reader might not expect:

- The generation interval is the fixed `GenerationInterval`. It does not depend on the sound level.
- A cell that dies is removed at once. `Layer` clears its slot, and `GameOfLife` drops it from the list in the generation it dies, so no death animation plays first.
- Population adjustment clears the slots it kills. It does not mark them dying.
- Every generation, the list engine tops itself up to a fifth of the initial count when it has fallen below that.
- Nothing caps the total population.

=== FILE: cells.dfy ===
/** One sprite cell of the list-based engine: its constructor invariants,
    the birth/death animation state machine run by every update, the
    one-step screen wrap and the draw-time opacity. Floating point is
    modelled by exact reals. */
module Cells {
  import opened Numerics

  datatype Vec = Vec(x: real, y: real)

  /** Step sizes whose values the program takes from constants not part of
      this model; only their positivity is assumed. */
  datatype Tuning = Tuning(birthScaleIncrement: real, deathScaleDecrement: real)

  predicate ValidTuning(t: Tuning) {
    t.birthScaleIncrement > 0.0 && t.deathScaleDecrement > 0.0
  }

  /** `id` stands for the object's reference identity and `texture` for the
      texture it was given; direction and speed belong to the float motion
      and are not kept. */
  datatype Cell = Cell(
    id: nat,
    texture: nat,
    pos: Vec,
    depth: real,
    scale: real,
    isBorn: bool,
    isDying: bool,
    birthScale: real,
    deathScale: real)

  /** What every cell satisfies from construction on. */
  predicate Valid(c: Cell) {
    && 0.0 <= c.depth <= 1.0
    && 0.0 <= c.birthScale <= 1.0
    && 0.0 <= c.deathScale <= 1.0
  }

  /** The constructor: depth clamped into [0, 1], scale 0, born, not dying,
      birth animation at its start and death animation not begun. */
  function NewCell(id: nat, texture: nat, pos: Vec, depth: real): (c: Cell)
    ensures Valid(c)
    ensures c.id == id && c.texture == texture && c.pos == pos
    ensures 0.0 <= depth <= 1.0 ==> c.depth == depth
    ensures depth < 0.0 ==> c.depth == 0.0
    ensures depth > 1.0 ==> c.depth == 1.0
    ensures c.scale == 0.0 && c.isBorn && !c.isDying
    ensures c.birthScale == 0.0 && c.deathScale == 1.0
  {
    Cell(id, texture, pos, ClampReal(depth, 0.0, 1.0), 0.0, true, false, 0.0, 1.0)
  }

  /** The zoom-in branch followed by the zoom-out branch of `Update`. */
  function Animate(c: Cell, t: Tuning): (r: Cell)
    requires ValidTuning(t)
    ensures Valid(c) ==> Valid(r)
    ensures r.id == c.id && r.texture == c.texture && r.pos == c.pos && r.depth == c.depth
    // the birth animation
    ensures !c.isBorn ==> !r.isBorn && r.birthScale == c.birthScale
    ensures c.isBorn ==> c.birthScale < r.birthScale || r.birthScale == 1.0
    ensures c.isBorn && c.birthScale <= 1.0 ==> c.birthScale <= r.birthScale <= 1.0
    ensures c.isBorn ==> (r.isBorn <==> c.birthScale + t.birthScaleIncrement < 1.0)
    ensures c.isBorn && !r.isBorn ==> r.birthScale == 1.0
    ensures c.isBorn && r.isBorn ==> r.birthScale == c.birthScale + t.birthScaleIncrement
    ensures r.isBorn ==> r.birthScale < 1.0
    // the death animation
    ensures r.isDying == c.isDying
    ensures !c.isDying ==> r.deathScale == c.deathScale
    ensures c.isDying && 0.0 <= c.deathScale ==> 0.0 <= r.deathScale <= c.deathScale
    ensures c.isDying ==> r.deathScale == 0.0 || r.deathScale == c.deathScale - t.deathScaleDecrement
  {
    var born :=
      if c.isBorn then
        var b := c.birthScale + t.birthScaleIncrement;
        var done := b >= 1.0;
        var b' := if done then 1.0 else b;
        c.(birthScale := b', isBorn := !done, scale := Lerp(c.scale, 1.0, b'))
      else c;
    if born.isDying then
      var d := born.deathScale - t.deathScaleDecrement;
      born.(deathScale := if d <= 0.0 then 0.0 else d,
            scale := Lerp(born.scale, 0.0, t.deathScaleDecrement))
    else born
  }

  /** `n` consecutive updates. */
  function AnimateN(c: Cell, t: Tuning, n: nat): (r: Cell)
    requires ValidTuning(t)
    ensures Valid(c) ==> Valid(r)
    ensures r.isDying == c.isDying
    ensures !c.isBorn ==> !r.isBorn
  {
    if n == 0 then c else Animate(AnimateN(c, t, n - 1), t)
  }

  /** While the birth animation runs, each update advances it by the full increment. */
  lemma {:induction false} BirthProgress(c: Cell, t: Tuning, n: nat)
    requires ValidTuning(t)
    requires AnimateN(c, t, n).isBorn
    ensures AnimateN(c, t, n).birthScale == c.birthScale + Steps(n, t.birthScaleIncrement)
  {
    if n > 0 {
      var p := AnimateN(c, t, n - 1);
      BornStep(p, t, AnimateN(c, t, n));
      BirthProgress(c, t, n - 1);
    }
  }

  /** An update that leaves a cell born found it born and added one increment. */
  lemma BornStep(p: Cell, t: Tuning, r: Cell)
    requires ValidTuning(t) && r == Animate(p, t) && r.isBorn
    ensures p.isBorn && r.birthScale == p.birthScale + t.birthScaleIncrement
  {
  }

  /** A born cell stops being born after at most ceil(1 / increment) updates. */
  lemma BirthCompletes(c: Cell, t: Tuning, n: nat)
    requires ValidTuning(t) && Valid(c)
    requires n as real * t.birthScaleIncrement >= 1.0
    ensures !AnimateN(c, t, n).isBorn
    ensures c.isBorn ==> AnimateN(c, t, n).birthScale == 1.0
  {
    StepsProduct(n, t.birthScaleIncrement);
    BirthEnds(c, t, n);
    if c.isBorn {
      FinishedBirthStaysFinished(c, t, n);
    }
  }

  /** `BirthCompletes` with the product written as repeated addition. */
  lemma BirthEnds(c: Cell, t: Tuning, n: nat)
    requires ValidTuning(t) && Valid(c)
    requires Steps(n, t.birthScaleIncrement) >= 1.0
    ensures !AnimateN(c, t, n).isBorn
  {
    if n > 0 {
      var r := AnimateN(c, t, n);
      assert r == Animate(AnimateN(c, t, n - 1), t);
      if r.isBorn {
        BirthProgress(c, t, n);
        assert false;
      }
    }
  }

  /** Once the birth animation has ended, the birth scale rests at 1. */
  lemma {:induction false} FinishedBirthStaysFinished(c: Cell, t: Tuning, n: nat)
    requires ValidTuning(t)
    requires c.isBorn && !AnimateN(c, t, n).isBorn
    ensures AnimateN(c, t, n).birthScale == 1.0
  {
    if n > 0 {
      var p := AnimateN(c, t, n - 1);
      if !p.isBorn {
        FinishedBirthStaysFinished(c, t, n - 1);
      }
    }
  }

  /** While dying and above 0, each update lowers the death scale by the full decrement. */
  lemma {:induction false} DeathProgress(c: Cell, t: Tuning, n: nat)
    requires ValidTuning(t) && c.isDying
    requires AnimateN(c, t, n).deathScale > 0.0
    ensures AnimateN(c, t, n).deathScale == c.deathScale - Steps(n, t.deathScaleDecrement)
  {
    if n > 0 {
      var p := AnimateN(c, t, n - 1);
      var r := Animate(p, t);
      assert r == AnimateN(c, t, n);
      assert p.isDying;
      assert r.deathScale == p.deathScale - t.deathScaleDecrement;
      DeathProgress(c, t, n - 1);
    }
  }

  /** A dying cell's death scale reaches 0 after at most ceil(1 / decrement) updates. */
  lemma DeathCompletes(c: Cell, t: Tuning, n: nat)
    requires ValidTuning(t) && Valid(c) && c.isDying
    requires n as real * t.deathScaleDecrement >= 1.0
    ensures AnimateN(c, t, n).deathScale == 0.0
  {
    StepsProduct(n, t.deathScaleDecrement);
    DeathEnds(c, t, n);
  }

  /** `DeathCompletes` with the product written as repeated addition. */
  lemma DeathEnds(c: Cell, t: Tuning, n: nat)
    requires ValidTuning(t) && Valid(c) && c.isDying
    requires Steps(n, t.deathScaleDecrement) >= 1.0
    ensures AnimateN(c, t, n).deathScale == 0.0
  {
    var r := AnimateN(c, t, n);
    assert Valid(r);
    if r.deathScale > 0.0 {
      DeathProgress(c, t, n);
      assert false;
    }
  }

  /** `Die`: marks the cell as dying and changes nothing else. */
  function Die(c: Cell): (r: Cell)
    ensures r.isDying
    ensures r.(isDying := c.isDying) == c
  {
    c.(isDying := true)
  }

  /** Nothing clears `IsDying`: neither updates nor a second `Die`. */
  lemma {:induction false} DyingIsPermanent(c: Cell, t: Tuning, n: nat)
    requires ValidTuning(t) && c.isDying
    ensures AnimateN(c, t, n).isDying && Die(c) == c
  {
  }

  /** `WrapAround`: one conditional shift by the viewport size on each axis. */
  function WrapAround(p: Vec, width: real, height: real): (r: Vec)
    requires width >= 0.0 && height >= 0.0
    ensures 0.0 <= p.x <= width ==> r.x == p.x
    ensures 0.0 <= p.y <= height ==> r.y == p.y
    ensures -width <= p.x <= 2.0 * width ==> 0.0 <= r.x <= width
    ensures -height <= p.y <= 2.0 * height ==> 0.0 <= r.y <= height
    ensures r.x == p.x || r.x == p.x + width || r.x == p.x - width
    ensures r.y == p.y || r.y == p.y + height || r.y == p.y - height
  {
    var x1 := if p.x < 0.0 then p.x + width else p.x;
    var x2 := if x1 > width then x1 - width else x1;
    var y1 := if p.y < 0.0 then p.y + height else p.y;
    var y2 := if y1 > height then y1 - height else y1;
    Vec(x2, y2)
  }

  /** Draw opacity `Lerp(0.5, 1, 1 - Depth)`: nearer cells are more opaque. */
  function Opacity(depth: real): (o: real)
    ensures 0.0 <= depth <= 1.0 ==> 0.5 <= o <= 1.0
    ensures depth == 0.0 ==> o == 1.0
    ensures depth == 1.0 ==> o == 0.5
  {
    Lerp(0.5, 1.0, 1.0 - depth)
  }

  lemma OpacityDecreasesWithDepth(d1: real, d2: real)
    requires d1 <= d2
    ensures Opacity(d1) >= Opacity(d2)
  {
  }

  /** Draw scale: a born cell is drawn shrunk by its birth progress. */
  function DrawScale(c: Cell): (s: real)
    ensures !c.isBorn ==> s == c.scale
  {
    if c.isBorn then c.scale * c.birthScale else c.scale
  }

  /** The draw scale of a valid cell lies between 0 and its scale. */
  lemma DrawScaleWithin(c: Cell)
    requires Valid(c) && c.scale >= 0.0
    ensures 0.0 <= DrawScale(c) <= c.scale
  {
    if c.isBorn {
      ScaleByFraction(c.scale, c.birthScale);
    }
  }

  lemma ScaleByFraction(a: real, f: real)
    requires a >= 0.0 && 0.0 <= f <= 1.0
    ensures 0.0 <= a * f <= a
  {
    assert 0.0 <= a * (1.0 - f);
    assert a - a * f == a * (1.0 - f);
  }
}

=== FILE: game.dfy ===
/** The application shell: content loading, which seeds the engine with its
    first cells, and the per-frame update, which runs one generation each
    time the generation timer reaches its interval. Audio, stars, the GUI
    and logging are not modelled; whether the audio handler exists is a
    flag, the sound level and elapsed time are inputs. */
module Game {
  import opened Wrappers
  import opened Numerics
  import opened Cells
  import opened GameOfLife

  /** The number of cells the application seeds. */
  const InitialCellCount: int := 50

  /** The shell's state: whether the audio handler was created, the engine
      (absent until loaded), the generation timer in seconds and whether
      the application has asked to exit. */
  datatype Game = Game(audio: bool, engine: Option<Engine>, timer: real, exited: bool)

  /** The state before content is loaded. */
  const Fresh: Game := Game(false, None, 0.0, false)

  /** The inputs of one frame: the elapsed game time and whether Escape is
      held. */
  datatype Frame = Frame(elapsed: real, escape: bool)

  // ---------------------------------------------------------------------
  // Loading

  /** One seeded cell: a random texture, a random whole-pixel position of
      the viewport and a depth from `AssignDepth`, marked as already born so
      it skips the zoom-in. */
  function SeedCell(view: Viewport, textureCount: nat, s: Spawn): (c: Cell)
    requires textureCount > 0
    ensures Cells.Valid(c) && !c.isBorn && !c.isDying
    ensures c.id == s.id && c.texture < textureCount
    ensures c.depth == 0.1 || c.depth == 0.3 || c.depth == 0.6 || c.depth == 0.9
    ensures 0.0 <= c.pos.x && (view.width > 0 ==> c.pos.x < view.width as real)
    ensures 0.0 <= c.pos.y && (view.height > 0 ==> c.pos.y < view.height as real)
    ensures c.pos.x == c.pos.x.Floor as real
    ensures c.pos.y == c.pos.y.Floor as real
  {
    var pos := Vec(RandomBelow(s.xDraw, view.width) as real, RandomBelow(s.yDraw, view.height) as real);
    NewCell(s.id, RandomBelow(s.textureDraw, textureCount), pos, AssignDepth(s.depthRoll)).(isBorn := false)
  }

  /** The seeded cells, the `i`-th built from the draws `draws(i)`. */
  function Seeds(view: Viewport, textureCount: nat, draws: nat -> Spawn): (cells: seq<Cell>)
    requires textureCount > 0
    ensures |cells| == InitialCellCount
    ensures forall i :: 0 <= i < |cells| ==> cells[i] == SeedCell(view, textureCount, draws(i))
  {
    seq(InitialCellCount, (i: int) requires 0 <= i => SeedCell(view, textureCount, draws(i)))
  }

  /** Whether the two foreign constructors of `LoadContent` return: the
      audio handler's (it throws when the machine has no audio output) and
      the GUI's. */
  datatype Devices = Devices(audioCreated: bool, guiCreated: bool)

  /** `LoadContent`: creating the audio handler comes first; when it throws
      the catch exits and nothing else is built. With no textures the
      application exits without an engine; otherwise the engine is built
      for the textures and given the seeded cells. A GUI that fails to build
      afterwards exits with the engine in place. */
  function LoadContent(g: Game, view: Viewport, textureCount: nat, draws: nat -> Spawn, d: Devices): (r: Game)
    ensures r.timer == g.timer
    ensures r.audio == (g.audio || d.audioCreated)
    ensures !d.audioCreated ==> r == g.(exited := true)
    ensures d.audioCreated && textureCount == 0 ==> r == g.(audio := true, exited := true)
    ensures d.audioCreated && textureCount > 0 ==>
      r.engine.Some? && r.exited == (g.exited || !d.guiCreated)
    ensures d.audioCreated && textureCount > 0 ==>
      var e := r.engine.value;
      && e.textureCount == textureCount
      && e.initialCellCount == InitialCellCount
      && e.cells == Seeds(view, textureCount, draws)
      && |e.cells| == InitialCellCount
      && NoneDying(e.cells)
      && (forall i :: 0 <= i < |e.cells| ==>
            !e.cells[i].isBorn && e.cells[i].texture < textureCount)
  {
    if !d.audioCreated then
      g.(exited := true)
    else if textureCount == 0 then
      g.(audio := true, exited := true)
    else
      var built := NewEngine(Some(textureCount), InitialCellCount);
      var loaded := Initialize(built.value, Some(Seeds(view, textureCount, draws)));
      g.(audio := true, engine := Some(loaded.value), exited := g.exited || !d.guiCreated)
  }

  /** With textures the seeded engine already holds more than the minimum
      population its top-up step enforces. */
  lemma SeededAboveMinimum(view: Viewport, textureCount: nat, draws: nat -> Spawn, d: Devices)
    requires textureCount > 0 && d.audioCreated
    ensures var e := LoadContent(Fresh, view, textureCount, draws, d).engine.value;
      |e.cells| > MinimumCells(e.initialCellCount) == 10
  {
    var m := MinimumCells(InitialCellCount);
    assert 5 * m <= 50 < 5 * m + 5;
  }

  // ---------------------------------------------------------------------
  // The generation timer

  /** One frame of the timer when the generation it triggers succeeds:
      whether a generation runs, and the timer afterwards. */
  datatype Clock = Clock(fires: bool, timer: real)

  function Advance(timer: real, elapsed: real, interval: real): (r: Clock)
    // the timer is never negative and never rests at the interval
    ensures 0.0 <= timer && 0.0 <= elapsed ==> 0.0 <= r.timer
    ensures 0.0 < interval ==> r.timer < interval
    // without a generation no time is lost; a generation uses up at least
    // one interval of the accumulated time
    ensures !r.fires ==> r.timer == timer + elapsed
    ensures r.fires ==> r.timer + interval <= timer + elapsed
  {
    var t := timer + elapsed;
    if t >= interval then Clock(true, 0.0) else Clock(false, t)
  }

  function Sum(s: seq<real>): (total: real)
    ensures (forall i :: 0 <= i < |s| ==> s[i] >= 0.0) ==> total >= 0.0
  {
    if |s| == 0 then 0.0 else s[0] + Sum(s[1..])
  }

  /** A run of frames from timer `timer`: the number of generations run and
      the final timer. */
  datatype Tally = Tally(generations: nat, timer: real)

  function Run(timer: real, elapsed: seq<real>, interval: real): (r: Tally)
    ensures |elapsed| == 0 ==> r == Tally(0, timer)
    ensures r.generations <= |elapsed|
    decreases |elapsed|
  {
    if |elapsed| == 0 then Tally(0, timer)
    else
      var c := Advance(timer, elapsed[0], interval);
      var rest := Run(c.timer, elapsed[1..], interval);
      Tally(rest.generations + if c.fires then 1 else 0, rest.timer)
  }

  /** Each generation consumes at least one interval of elapsed time: the
      generations run, times the interval, plus what is left on the timer
      never exceeds the starting timer plus the time that passed. The timer
      stays in [0, interval). */
  lemma RunBudget(timer: real, elapsed: seq<real>, interval: real)
    requires 0.0 < interval && 0.0 <= timer < interval
    requires forall i :: 0 <= i < |elapsed| ==> elapsed[i] >= 0.0
    ensures var r := Run(timer, elapsed, interval);
      && r.generations as real * interval + r.timer <= timer + Sum(elapsed)
      && 0.0 <= r.timer < interval
  {
    RunBudgetSteps(timer, elapsed, interval);
    StepsProduct(Run(timer, elapsed, interval).generations, interval);
  }

  /** `RunBudget` with the product written as repeated addition. */
  lemma {:induction false} RunBudgetSteps(timer: real, elapsed: seq<real>, interval: real)
    requires 0.0 < interval && 0.0 <= timer < interval
    requires forall i :: 0 <= i < |elapsed| ==> elapsed[i] >= 0.0
    ensures var r := Run(timer, elapsed, interval);
      && Steps(r.generations, interval) + r.timer <= timer + Sum(elapsed)
      && 0.0 <= r.timer < interval
    decreases |elapsed|
  {
    if |elapsed| > 0 {
      var c := Advance(timer, elapsed[0], interval);
      var tail := elapsed[1..];
      var rest := Run(c.timer, tail, interval);
      assert Run(timer, elapsed, interval)
          == Tally(rest.generations + (if c.fires then 1 else 0), rest.timer);
      assert Sum(elapsed) == elapsed[0] + Sum(tail);
      RunBudgetSteps(c.timer, tail, interval);
      assert Steps(rest.generations + 1, interval) == Steps(rest.generations, interval) + interval;
    }
  }

  /** Frames that each last at least an interval run a generation every
      frame. */
  lemma {:induction false} EveryFrameFires(timer: real, elapsed: seq<real>, interval: real)
    requires 0.0 <= timer
    requires forall i :: 0 <= i < |elapsed| ==> elapsed[i] >= interval
    ensures Run(timer, elapsed, interval).generations == |elapsed|
    decreases |elapsed|
  {
    if |elapsed| > 0 {
      EveryFrameFires(Advance(timer, elapsed[0], interval).timer, elapsed[1..], interval);
    }
  }

  /** While the accumulated time stays below the interval no generation
      runs, and the timer holds exactly the accumulated time. */
  lemma {:induction false} QuietRun(timer: real, elapsed: seq<real>, interval: real)
    requires 0.0 <= timer && timer + Sum(elapsed) < interval
    requires forall i :: 0 <= i < |elapsed| ==> elapsed[i] >= 0.0
    ensures Run(timer, elapsed, interval) == Tally(0, timer + Sum(elapsed))
    decreases |elapsed|
  {
    if |elapsed| > 0 {
      assert Sum(elapsed[1..]) >= 0.0;
      QuietRun(timer + elapsed[0], elapsed[1..], interval);
    }
  }

  // ---------------------------------------------------------------------
  // The frame update

  /** The configuration a generation step runs under. */
  datatype Setup = Setup(view: Viewport, cellSize: real, tuning: Tuning, interval: real)

  predicate ValidSetup(s: Setup) {
    s.cellSize > 0.0 && ValidTuning(s.tuning)
  }

  /** When a generation step throws: a non-empty cell list and a cell size
      that truncates to zero or exceeds the viewport. */
  predicate Throws(e: Engine, s: Setup) {
    |e.cells| > 0 &&
    (s.cellSize < 1.0 || s.view.width < Trunc(s.cellSize) || s.view.height < Trunc(s.cellSize))
  }

  /** The timer invariant: never negative, and below the interval unless
      the application is exiting. */
  predicate TimerOk(g: Game, interval: real) {
    0.0 <= g.timer && (g.timer < interval || g.exited)
  }

  /** `Update`: Escape asks to exit; with an audio handler the timer
      advances and, once it reaches the interval, a generation runs and the
      timer resets. A generation that throws is caught: the application
      exits, the timer keeps its value and the engine keeps the cells the
      generation had already animated. */
  function Tick(g: Game, f: Frame, s: Setup, spawn: nat -> Spawn, extras: nat -> Spawn): (r: Game)
    requires ValidSetup(s)
    ensures r.audio == g.audio
    ensures g.exited || f.escape ==> r.exited
    ensures TimerOk(g, s.interval) && f.elapsed >= 0.0 ==> TimerOk(r, s.interval)
    // without an audio handler nothing but the exit request happens
    ensures !g.audio ==> r == g.(exited := g.exited || f.escape)
    // before the interval is reached only the timer moves
    ensures g.audio && g.timer + f.elapsed < s.interval ==>
      r == g.(timer := g.timer + f.elapsed, exited := g.exited || f.escape)
    // once it is reached, a generation runs: the engine becomes the result
    // of `GameOfLife.Update`, or the application exits when that throws
    ensures g.audio && g.timer + f.elapsed >= s.interval ==>
      if g.engine.Some? && Throws(g.engine.value, s) then
        var e := g.engine.value;
        r == g.(timer := g.timer + f.elapsed, exited := true,
                engine := Some(e.(cells := AnimateAll(e.cells, s.tuning))))
      else
        && r.timer == 0.0
        && r.exited == (g.exited || f.escape)
        && r.engine == if g.engine.None? then None
                       else Some(GameOfLife.Update(g.engine.value, s.view, s.cellSize, s.tuning, spawn, extras).value)
    // a generation that runs keeps the engine's bookkeeping and, for a list
    // with no dying cells, its minimum population
    ensures g.audio && g.timer + f.elapsed >= s.interval &&
            g.engine.Some? && !Throws(g.engine.value, s) ==>
      r.engine.Some? &&
      var e, e' := g.engine.value, r.engine.value;
      && e'.initialCellCount == e.initialCellCount
      && e'.textureCount == e.textureCount
      && (NoneDying(e.cells) ==> NoneDying(e'.cells))
      && (NoneDying(e.cells) && e.textureCount > 0 ==>
            |e'.cells| >= MinimumCells(e.initialCellCount))
  {
    var asked := g.(exited := g.exited || f.escape);
    var timer := g.timer + f.elapsed;
    if !g.audio then asked
    else if timer < s.interval then asked.(timer := timer)
    else if g.engine.None? then asked.(timer := 0.0)
    else
      var e := g.engine.value;
      match GameOfLife.Update(e, s.view, s.cellSize, s.tuning, spawn, extras)
      // the cells were animated in place before the rules threw
      case Failure(_) => asked.(timer := timer, exited := true, engine := Some(e.(cells := AnimateAll(e.cells, s.tuning))))
      case Success(next) => asked.(timer := 0.0, engine := Some(next))
  }

  /** Between throws, `Tick` follows the timer `Advance` describes: it
      leaves the timer `Advance` leaves, and steps the engine exactly when
      `Advance` fires. */
  lemma TickFollowsAdvance(g: Game, f: Frame, s: Setup, spawn: nat -> Spawn, extras: nat -> Spawn)
    requires ValidSetup(s) && g.audio && !(g.engine.Some? && Throws(g.engine.value, s))
    ensures var r, c := Tick(g, f, s, spawn, extras), Advance(g.timer, f.elapsed, s.interval);
      && r.timer == c.timer
      && r.engine == if c.fires && g.engine.Some?
                     then Some(GameOfLife.Update(g.engine.value, s.view, s.cellSize, s.tuning, spawn, extras).value)
                     else g.engine
  {
  }

  // ---------------------------------------------------------------------
  // Runs of frames

  /** The draws one frame's generation takes: for newborns and for extras. */
  datatype Draws = Draws(spawn: nat -> Spawn, extras: nat -> Spawn)

  /** The elapsed times of a run of frames. */
  function Elapsed(frames: seq<Frame>): (e: seq<real>)
    ensures |e| == |frames|
    ensures forall i :: 0 <= i < |frames| ==> e[i] == frames[i].elapsed
  {
    seq(|frames|, i requires 0 <= i < |frames| => frames[i].elapsed)
  }

  /** One `Tick` per frame, the `i`-th frame taking the `i`-th draws. */
  function Ticks(g: Game, frames: seq<Frame>, s: Setup, draws: seq<Draws>): (r: Game)
    requires ValidSetup(s) && |draws| == |frames|
    ensures r.audio == g.audio
    ensures g.exited ==> r.exited
    decreases |frames|
  {
    if |frames| == 0 then g
    else Ticks(Tick(g, frames[0], s, draws[0].spawn, draws[0].extras), frames[1..], s, draws[1..])
  }

  /** A cell size that makes no generation throw: at least 1 and no larger
      than the viewport. */
  predicate NeverThrows(s: Setup) {
    s.cellSize >= 1.0 && Trunc(s.cellSize) <= s.view.width && Trunc(s.cellSize) <= s.view.height
  }

  /** With a cell size that never throws, the game's timer over a run of
      frames is the timer `Run` follows, and a run in which `Run` counts no
      generation leaves the engine as it was. So `RunBudget`, `QuietRun` and
      `EveryFrameFires` describe the game loop itself. */
  lemma {:induction false} TicksFollowRun(g: Game, frames: seq<Frame>, s: Setup, draws: seq<Draws>)
    requires ValidSetup(s) && NeverThrows(s) && |draws| == |frames| && g.audio
    ensures Ticks(g, frames, s, draws).timer == Run(g.timer, Elapsed(frames), s.interval).timer
    ensures Run(g.timer, Elapsed(frames), s.interval).generations == 0 ==>
      Ticks(g, frames, s, draws).engine == g.engine
    decreases |frames|
  {
    if |frames| > 0 {
      var d := draws[0];
      var next := Tick(g, frames[0], s, d.spawn, d.extras);
      TickFollowsAdvance(g, frames[0], s, d.spawn, d.extras);
      assert Elapsed(frames)[1..] == Elapsed(frames[1..]);
      TicksFollowRun(next, frames[1..], s, draws[1..]);
    }
  }

  /** Over any run of frames with a cell size that never throws, the game's
      generation timer stays in [0, interval). */
  lemma GameTimerInRange(g: Game, frames: seq<Frame>, s: Setup, draws: seq<Draws>)
    requires ValidSetup(s) && NeverThrows(s) && |draws| == |frames| && g.audio
    requires 0.0 < s.interval && 0.0 <= g.timer < s.interval
    requires forall i :: 0 <= i < |frames| ==> frames[i].elapsed >= 0.0
    ensures 0.0 <= Ticks(g, frames, s, draws).timer < s.interval
  {
    TicksFollowRun(g, frames, s, draws);
    RunBudget(g.timer, Elapsed(frames), s.interval);
  }
}

=== FILE: gameoflife.dfy ===
/** The list-based engine the application runs: a list of free-moving cells,
    each mapped to a grid key by truncating its position, evolved by
    counting the wrapped neighbour keys of every cell. */
module GameOfLife {
  import opened Wrappers
  import opened Numerics
  import opened Seqs
  import opened Lattice
  import opened Cells
  import Layer

  type Key = (int, int)

  /** The viewport the engine reads its grid size from. */
  datatype Viewport = Viewport(width: nat, height: nat)

  /** The random draws one new cell consumes: its identity, its texture
      draw, the `NextDouble` behind its depth and, for cells added to keep
      the population up, the two `Next` draws behind its position. */
  datatype Spawn = Spawn(id: nat, textureDraw: nat, depthRoll: real, xDraw: nat, yDraw: nat)

  /** The engine state: the cell list, the configured initial count and the
      number of textures it was given. */
  datatype Engine = Engine(cells: seq<Cell>, initialCellCount: int, textureCount: nat)

  /** The constructor: a missing or empty texture list is rejected; the cell
      list starts empty. `textures` is the length of the list, if any. */
  function NewEngine(textures: Option<nat>, initialCellCount: int): (r: Result<Engine>)
    ensures r.Success? <==> textures.Some? && textures.value > 0
    ensures r.Failure? ==> r.error == NullOrEmptyTextures
    ensures r.Success? ==>
      r.value.cells == [] && r.value.textureCount == textures.value
      && r.value.initialCellCount == initialCellCount
  {
    if textures.None? || textures.value == 0 then Failure(NullOrEmptyTextures)
    else Success(Engine([], initialCellCount, textures.value))
  }

  /** `Initialize`: a missing list is rejected, otherwise it becomes the cell list. */
  function Initialize(e: Engine, initialCells: Option<seq<Cell>>): (r: Result<Engine>)
    ensures r.Success? <==> initialCells.Some?
    ensures r.Failure? ==> r.error == NullInitialCells
    ensures r.Success? ==> r.value == e.(cells := initialCells.value)
  {
    match initialCells
    case None => Failure(NullInitialCells)
    case Some(cs) => Success(e.(cells := cs))
  }

  // ---------------------------------------------------------------------
  // Grid keys and neighbour counting

  /** `((int)(Position.X / CellSize), (int)(Position.Y / CellSize))`. */
  function CellKey(c: Cell, cellSize: real): (k: Key)
    requires cellSize > 0.0
    ensures 0.0 <= c.pos.x ==> 0 <= k.0 && k.0 as real <= c.pos.x / cellSize < k.0 as real + 1.0
    ensures 0.0 <= c.pos.y ==> 0 <= k.1 && k.1 as real <= c.pos.y / cellSize < k.1 as real + 1.0
    // truncation toward zero: the square just left of or above the origin
    // shares key 0 with the first square
    ensures -cellSize < c.pos.x ==> 0 <= k.0
    ensures -cellSize < c.pos.y ==> 0 <= k.1
  {
    KeyNearOrigin(c.pos.x, cellSize);
    KeyNearOrigin(c.pos.y, cellSize);
    (Trunc(c.pos.x / cellSize), Trunc(c.pos.y / cellSize))
  }

  lemma KeyNearOrigin(v: real, cellSize: real)
    requires cellSize > 0.0
    ensures -cellSize < v ==> -1.0 < v / cellSize
  {
    assert v / cellSize * cellSize == v;
  }

  /** The frame of a `width` x `height` grid, used for its neighbourhood only. */
  function Frame(width: nat, height: nat): (g: Layer.Grid)
    ensures Layer.Valid(g) && g.width == width && g.height == height
  {
    Layer.EmptyGrid(width, height)
  }

  /** The eight keys `((x + dx + w) % w, (y + dy + h) % h)` the counting loop
      increments for a cell at key `(x, y)`, in loop order. */
  function KeysAround(k: Key, width: nat, height: nat): (ks: seq<Key>)
    requires width > 0 && height > 0
    ensures |ks| == 8
    ensures forall i :: 0 <= i < 8 ==>
      ks[i] == (Wrap(k.0, Offsets[i].0, width), Wrap(k.1, Offsets[i].1, height))
  {
    seq(8, i requires 0 <= i < 8 => Layer.NeighbourPos(Frame(width, height), k.0, k.1, i))
  }

  /** Every key the counting loop increments, cell by cell. */
  function NeighbourKeys(cells: seq<Cell>, cellSize: real, width: nat, height: nat): (ks: seq<Key>)
    requires cellSize > 0.0 && width > 0 && height > 0
    ensures |ks| == 8 * |cells|
    decreases |cells|
  {
    if |cells| == 0 then []
    else
      NeighbourKeys(cells[..|cells| - 1], cellSize, width, height)
        + KeysAround(CellKey(cells[|cells| - 1], cellSize), width, height)
  }

  /** The `neighborCounts` dictionary built from a stream of keys: each key
      present exactly when it occurs, mapped to its number of occurrences. */
  function Tally(ks: seq<Key>): (m: map<Key, nat>)
    ensures forall k :: k in m <==> k in ks
    ensures forall k :: k in m ==> m[k] == multiset(ks)[k]
    decreases |ks|
  {
    if |ks| == 0 then map[]
    else
      var front := ks[..|ks| - 1];
      var last := ks[|ks| - 1];
      assert ks == front + [last];
      var m := Tally(front);
      m[last := if last in m then m[last] + 1 else 1]
  }

  /** The number of increments `k` received; 0 for a key absent from the dictionary. */
  function CountOf(m: map<Key, nat>, k: Key): nat {
    if k in m then m[k] else 0
  }

  lemma CountOfTally(ks: seq<Key>, k: Key)
    ensures CountOf(Tally(ks), k) == multiset(ks)[k]
  {
  }

  /** Some cell of the list maps to `k` (`cells.Exists(...)`). */
  predicate KeyTaken(cells: seq<Cell>, k: Key, cellSize: real)
    requires cellSize > 0.0
  {
    exists i :: 0 <= i < |cells| && CellKey(cells[i], cellSize) == k
  }

  /** The centre of grid square `k`, where a newborn is placed. */
  function Centre(k: Key, cellSize: real): Vec {
    Vec(k.0 as real * cellSize + cellSize / 2.0, k.1 as real * cellSize + cellSize / 2.0)
  }

  /** A newborn placed at the centre of a square of the grid maps back to
      that square. Squares left of or above the origin do not: truncation
      toward zero sends `-0.5` to `0`. */
  lemma CentreKey(k: Key, cellSize: real, c: Cell)
    requires cellSize > 0.0 && k.0 >= 0 && k.1 >= 0
    requires c.pos == Centre(k, cellSize)
    ensures CellKey(c, cellSize) == k
  {
    CentreCoordinate(k.0, cellSize, c.pos.x);
    CentreCoordinate(k.1, cellSize, c.pos.y);
  }

  /** A coordinate at the centre of square `a` truncates back to `a`. */
  lemma CentreCoordinate(a: int, cellSize: real, x: real)
    requires cellSize > 0.0 && a >= 0
    requires x == a as real * cellSize + cellSize / 2.0
    ensures Trunc(x / cellSize) == a
  {
    var v := a as real + 0.5;
    assert x == v * cellSize;
    DivCancel(v, cellSize);
    TruncHalf(a);
  }

  lemma DivCancel(v: real, c: real)
    requires c != 0.0
    ensures (v * c) / c == v
  {
  }

  lemma TruncHalf(a: int)
    requires a >= 0
    ensures Trunc(a as real + 0.5) == a
  {
    var t := Trunc(a as real + 0.5);
    assert t as real <= a as real + 0.5 < t as real + 1.0;
  }

  /** `AssignDepth`: the roll of `NextDouble` picks one of four depths,
      0.1 and 0.3 for the two foreground bands and 0.6 and 0.9 for the two
      background bands. */
  function AssignDepth(roll: real): (d: real)
    ensures d == 0.1 || d == 0.3 || d == 0.6 || d == 0.9
    ensures roll < 0.1 <==> d == 0.1
    ensures d <= 0.3 <==> roll < 0.3
    ensures d <= 0.6 <==> roll < 0.6
  {
    if roll < 0.1 then 0.1
    else if roll < 0.3 then 0.3
    else if roll < 0.6 then 0.6
    else 0.9
  }

  /** A larger roll never gives a nearer depth. */
  lemma AssignDepthMonotone(r1: real, r2: real)
    requires r1 <= r2
    ensures AssignDepth(r1) <= AssignDepth(r2)
  {
  }

  // ---------------------------------------------------------------------
  // One generation

  /** A cell survives when its own key received 2 or 3 increments. */
  predicate SurvivesWith(counts: map<Key, nat>, c: Cell, cellSize: real)
    requires cellSize > 0.0
  {
    var n := CountOf(counts, CellKey(c, cellSize));
    n == 2 || n == 3
  }

  /** `survivingCells`: the cells that survive, in list order. The others
      are marked with `Die` and dropped from the list in the same pass. */
  function Survivors(cells: seq<Cell>, counts: map<Key, nat>, cellSize: real): (r: seq<Cell>)
    requires cellSize > 0.0
    ensures forall c :: c in r <==> c in cells && SurvivesWith(counts, c, cellSize)
    ensures forall c :: multiset(r)[c] == if SurvivesWith(counts, c, cellSize) then multiset(cells)[c] else 0
  {
    Filter(cells, c => SurvivesWith(counts, c, cellSize))
  }

  /** The keys a cell is born on: those with exactly three increments that
      no current cell maps to, each once, in the dictionary's insertion order. */
  function BirthKeys(cells: seq<Cell>, keys: seq<Key>, cellSize: real): (r: seq<Key>)
    requires cellSize > 0.0
    ensures Distinct(r)
    ensures forall k :: k in r <==> multiset(keys)[k] == 3 && !KeyTaken(cells, k, cellSize)
  {
    var counts := Tally(keys);
    var order := Dedupe(keys);
    FilterDistinct(order, k => CountOf(counts, k) == 3 && !KeyTaken(cells, k, cellSize));
    Filter(order, k => CountOf(counts, k) == 3 && !KeyTaken(cells, k, cellSize))
  }

  /** The cell born on key `k` from the draws `s`: at the centre of the
      square, with a drawn texture and a depth from `AssignDepth`. */
  function Newborn(k: Key, cellSize: real, textureCount: nat, s: Spawn): (c: Cell)
    requires textureCount > 0
    ensures Cells.Valid(c) && c.isBorn && !c.isDying
    ensures c.pos == Centre(k, cellSize) && c.texture < textureCount
    ensures c.depth in {0.1, 0.3, 0.6, 0.9}
  {
    NewCell(s.id, s.textureDraw % textureCount, Centre(k, cellSize), AssignDepth(s.depthRoll))
  }

  /** `bornCells`: one newborn per birth key, the `i`-th from the `i`-th
      draws; none at all when there is no texture to give them. */
  function Newborns(birthKeys: seq<Key>, cellSize: real, textureCount: nat, spawn: nat -> Spawn): (r: seq<Cell>)
    ensures textureCount == 0 ==> r == []
    ensures textureCount > 0 ==> |r| == |birthKeys|
    ensures forall i :: 0 <= i < |r| ==>
      textureCount > 0 && r[i] == Newborn(birthKeys[i], cellSize, textureCount, spawn(i))
  {
    if textureCount == 0 then []
    else seq(|birthKeys|, i requires 0 <= i < |birthKeys| => Newborn(birthKeys[i], cellSize, textureCount, spawn(i)))
  }

  /** The next cell list on a `width` x `height` grid: survivors first, then newborns. */
  function Generation(cells: seq<Cell>, cellSize: real, width: nat, height: nat,
                      textureCount: nat, spawn: nat -> Spawn): (r: seq<Cell>)
    requires cellSize > 0.0 && width > 0 && height > 0
    // every cell of the next list is an old cell or a valid newborn
    ensures forall i :: 0 <= i < |r| ==>
      r[i] in cells || (textureCount > 0 && Cells.Valid(r[i]) && r[i].isBorn && !r[i].isDying)
    // an old cell carries on exactly when its own key was visited 2 or 3 times
    ensures forall c :: c in cells && !c.isBorn ==>
      (c in r <==> SurvivesWith(Tally(NeighbourKeys(cells, cellSize, width, height)), c, cellSize))
  {
    var keys := NeighbourKeys(cells, cellSize, width, height);
    Survivors(cells, Tally(keys), cellSize) + Newborns(BirthKeys(cells, keys, cellSize), cellSize, textureCount, spawn)
  }

  /** No cell of the list is in its death animation. */
  predicate NoneDying(cells: seq<Cell>) {
    forall i :: 0 <= i < |cells| ==> !cells[i].isDying
  }

  /** `ApplyRules`. With cells present, the grid size is recomputed from
      the viewport for every neighbour, so a cell size below 1 or a
      viewport smaller than one cell throws a division by zero; with no
      cells nothing is computed and the list stays empty. */
  function ApplyRules(e: Engine, view: Viewport, cellSize: real, spawn: nat -> Spawn): (r: Result<Engine>)
    requires cellSize > 0.0
    ensures r.Failure? <==>
      |e.cells| > 0 &&
      (cellSize < 1.0 || view.width < Trunc(cellSize) || view.height < Trunc(cellSize))
    ensures r.Failure? ==> r.error == DivideByZero
    ensures r.Success? ==>
      r.value.initialCellCount == e.initialCellCount && r.value.textureCount == e.textureCount
    ensures r.Success? && |e.cells| == 0 ==> r.value.cells == []
    ensures r.Success? && NoneDying(e.cells) ==> NoneDying(r.value.cells)
  {
    if |e.cells| == 0 then Success(e)
    else
      match EngineGrid(view, cellSize)
      case Failure(err) => Failure(err)
      case Success(d) =>
        var next := Generation(e.cells, cellSize, d.width, d.height, e.textureCount, spawn);
        GenerationNoneDying(e.cells, cellSize, d.width, d.height, e.textureCount, spawn);
        Success(e.(cells := next))
  }

  /** `gridWidth` and `gridHeight` as the counting loop computes them, or
      the division by zero their use as a divisor throws. */
  function EngineGrid(view: Viewport, cellSize: real): (r: Result<Dims>)
    requires cellSize > 0.0
    ensures r.Failure? <==> cellSize < 1.0 || view.width < Trunc(cellSize) || view.height < Trunc(cellSize)
    ensures r.Failure? ==> r.error == DivideByZero
    ensures r.Success? ==>
      r.value.width > 0 && r.value.height > 0 && GridDims(view.width, view.height, cellSize) == r
  {
    match GridDims(view.width, view.height, cellSize)
    case Failure(err) => Failure(err)
    case Success(d) =>
      EmptyDims(view.width, view.height, cellSize);
      if d.width == 0 || d.height == 0 then Failure(DivideByZero) else Success(d)
  }

  /** Survivors are unchanged cells and newborns are not dying, so no
      generation introduces a dying cell. */
  lemma GenerationNoneDying(cells: seq<Cell>, cellSize: real, width: nat, height: nat,
                            textureCount: nat, spawn: nat -> Spawn)
    requires cellSize > 0.0 && width > 0 && height > 0
    ensures NoneDying(cells) ==> NoneDying(Generation(cells, cellSize, width, height, textureCount, spawn))
  {
    if !NoneDying(cells) {
      return;
    }
    var keys := NeighbourKeys(cells, cellSize, width, height);
    var s := Survivors(cells, Tally(keys), cellSize);
    var b := Newborns(BirthKeys(cells, keys, cellSize), cellSize, textureCount, spawn);
    assert NoneDying(s) by {
      forall i | 0 <= i < |s|
        ensures !s[i].isDying
      {
        assert s[i] in cells;
      }
    }
    assert NoneDying(b);
    ConcatNoneDying(s, b);
  }

  lemma ConcatNoneDying(a: seq<Cell>, b: seq<Cell>)
    requires NoneDying(a) && NoneDying(b)
    ensures NoneDying(a + b)
  {
    forall i | 0 <= i < |a + b|
      ensures !(a + b)[i].isDying
    {
      if i >= |a| {
        assert (a + b)[i] == b[i - |a|];
      }
    }
  }

  /** The grid has no columns exactly when the viewport is narrower than
      the truncated cell size, and likewise for rows. */
  lemma EmptyDims(viewportWidth: nat, viewportHeight: nat, cellSize: real)
    requires cellSize >= 1.0
    ensures GridDims(viewportWidth, viewportHeight, cellSize).Success?
    ensures var d := GridDims(viewportWidth, viewportHeight, cellSize).value;
      && (d.width == 0 <==> viewportWidth < Trunc(cellSize))
      && (d.height == 0 <==> viewportHeight < Trunc(cellSize))
  {
    var d := GridDims(viewportWidth, viewportHeight, cellSize).value;
    var k := Trunc(cellSize);
    if d.width > 0 {
      MulAtLeast(d.width, k);
    }
    if d.height > 0 {
      MulAtLeast(d.height, k);
    }
  }

  // ---------------------------------------------------------------------
  // The list engine computes Life on the torus

  predicate InRange(k: Key, width: nat, height: nat) {
    0 <= k.0 < width && 0 <= k.1 < height
  }

  /** Every cell maps to a square of the grid. */
  predicate KeysInRange(cells: seq<Cell>, cellSize: real, width: nat, height: nat)
    requires cellSize > 0.0
  {
    forall i :: 0 <= i < |cells| ==> InRange(CellKey(cells[i], cellSize), width, height)
  }

  /** No two cells map to the same square. */
  predicate DistinctKeys(cells: seq<Cell>, cellSize: real)
    requires cellSize > 0.0
  {
    forall i, j :: 0 <= i < j < |cells| ==> CellKey(cells[i], cellSize) != CellKey(cells[j], cellSize)
  }

  /** The squares the cells occupy. */
  function KeySet(cells: seq<Cell>, cellSize: real): (ks: set<Key>)
    requires cellSize > 0.0
    ensures forall k :: k in ks <==> KeyTaken(cells, k, cellSize)
  {
    set i | 0 <= i < |cells| :: CellKey(cells[i], cellSize)
  }

  /** The torus neighbours of square `k`. */
  function Around(k: Key, width: nat, height: nat): set<Key> {
    Layer.TorusNeighbours(Frame(width, height), k.0, k.1)
  }

  /** Torus adjacency is symmetric. */
  lemma AroundSymmetric(k: Key, q: Key, width: nat, height: nat)
    requires InRange(k, width, height) && InRange(q, width, height)
    ensures q in Around(k, width, height) <==> k in Around(q, width, height)
  {
    var g := Frame(width, height);
    Layer.TorusMembership(g, q, k.0, k.1);
    Layer.TorusMembership(g, k, q.0, q.1);
  }

  /** On a grid of at least 3 x 3 the eight keys around an in-range square
      are its eight torus neighbours, each once. */
  lemma KeysAroundAreTorusNeighbours(k: Key, width: nat, height: nat)
    requires width >= 3 && height >= 3 && InRange(k, width, height)
    ensures Distinct(KeysAround(k, width, height))
    ensures forall q :: q in KeysAround(k, width, height) <==> q in Around(k, width, height)
  {
    var g := Frame(width, height);
    Layer.NeighbourPositionsAreTorusNeighbours(g, k.0, k.1);
    assert KeysAround(k, width, height) == Layer.NeighbourPositions(g, k.0, k.1);
  }

  /** The reference count: how many cells sit on a torus neighbour of `q`. */
  function CountNear(cells: seq<Cell>, q: Key, cellSize: real, width: nat, height: nat): (n: nat)
    requires cellSize > 0.0
    ensures n <= |cells|
    decreases |cells|
  {
    if |cells| == 0 then 0
    else
      CountNear(cells[..|cells| - 1], q, cellSize, width, height)
        + if CellKey(cells[|cells| - 1], cellSize) in Around(q, width, height) then 1 else 0
  }

  /** With every cell on the grid, the number of increments an in-range key
      receives is the number of cells on its torus neighbours. */
  lemma {:induction false} NeighbourKeysCount(cells: seq<Cell>, q: Key, cellSize: real, width: nat, height: nat)
    requires cellSize > 0.0 && width >= 3 && height >= 3
    requires KeysInRange(cells, cellSize, width, height) && InRange(q, width, height)
    ensures multiset(NeighbourKeys(cells, cellSize, width, height))[q] == CountNear(cells, q, cellSize, width, height)
    decreases |cells|
  {
    if |cells| > 0 {
      var front := cells[..|cells| - 1];
      var k := CellKey(cells[|cells| - 1], cellSize);
      assert KeysInRange(front, cellSize, width, height) by {
        forall i | 0 <= i < |front|
          ensures InRange(CellKey(front[i], cellSize), width, height)
        {
          assert front[i] == cells[i];
        }
      }
      NeighbourKeysCount(front, q, cellSize, width, height);
      KeysAroundAreTorusNeighbours(k, width, height);
      DistinctMultiplicity(KeysAround(k, width, height), q);
      AroundSymmetric(k, q, width, height);
    }
  }

  /** When the cells occupy different squares, the reference count is the
      number of occupied torus neighbours. */
  lemma {:induction false} CountNearDistinct(cells: seq<Cell>, q: Key, cellSize: real, width: nat, height: nat)
    requires cellSize > 0.0 && DistinctKeys(cells, cellSize)
    ensures CountNear(cells, q, cellSize, width, height) == |KeySet(cells, cellSize) * Around(q, width, height)|
    decreases |cells|
  {
    if |cells| > 0 {
      var front := cells[..|cells| - 1];
      var k := CellKey(cells[|cells| - 1], cellSize);
      assert DistinctKeys(front, cellSize) by {
        forall i, j | 0 <= i < j < |front|
          ensures CellKey(front[i], cellSize) != CellKey(front[j], cellSize)
        {
          assert front[i] == cells[i] && front[j] == cells[j];
        }
      }
      CountNearDistinct(front, q, cellSize, width, height);
      var before := KeySet(front, cellSize);
      KeySetSnoc(cells, cellSize);
      IntersectAddFresh(before, k, Around(q, width, height));
    }
  }

  /** Appending a cell adds its square; with distinct keys, a new one. */
  lemma KeySetSnoc(cells: seq<Cell>, cellSize: real)
    requires cellSize > 0.0 && |cells| > 0
    ensures var front := cells[..|cells| - 1];
      KeySet(cells, cellSize) == KeySet(front, cellSize) + {CellKey(cells[|cells| - 1], cellSize)}
    ensures DistinctKeys(cells, cellSize) ==>
      CellKey(cells[|cells| - 1], cellSize) !in KeySet(cells[..|cells| - 1], cellSize)
  {
    var front := cells[..|cells| - 1];
    var k := CellKey(cells[|cells| - 1], cellSize);
    var before := KeySet(front, cellSize);
    forall x
      ensures x in KeySet(cells, cellSize) <==> x in before + {k}
    {
      if x in KeySet(cells, cellSize) && x != k {
        var i :| 0 <= i < |cells| && CellKey(cells[i], cellSize) == x;
        assert front[i] == cells[i];
      }
      if x in before {
        var i :| 0 <= i < |front| && CellKey(front[i], cellSize) == x;
        assert cells[i] == front[i];
      }
    }
  }

  /** The occupancy grid of a cell list: a slot is occupied exactly when
      some cell maps to it. */
  function Occupancy(cells: seq<Cell>, cellSize: real, width: nat, height: nat): (g: Layer.Grid)
    requires cellSize > 0.0
    ensures Layer.Valid(g) && g.width == width && g.height == height
    ensures forall x, y :: 0 <= x < width && 0 <= y < height ==>
      (g.slots[x][y].Some? <==> (x, y) in KeySet(cells, cellSize))
  {
    var ks := KeySet(cells, cellSize);
    Layer.Grid(width, height, seq(width, x => seq(height, y => if (x, y) in ks then Some(0) else None)))
  }

  lemma OccupiedTorusNeighbours(cells: seq<Cell>, cellSize: real, width: nat, height: nat, q: Key)
    requires cellSize > 0.0 && InRange(q, width, height)
    ensures Layer.LiveTorusNeighbours(Occupancy(cells, cellSize, width, height), q.0, q.1)
         == KeySet(cells, cellSize) * Around(q, width, height)
  {
    var g := Occupancy(cells, cellSize, width, height);
    forall p
      ensures p in Layer.LiveTorusNeighbours(g, q.0, q.1) <==> p in KeySet(cells, cellSize) * Around(q, width, height)
    {
      Layer.TorusMembership(g, p, q.0, q.1);
      Layer.TorusMembership(Frame(width, height), p, q.0, q.1);
    }
  }

  /** With distinct in-range keys on a grid of at least 3 x 3, the
      dictionary count of a square is the neighbour count the layer engine
      computes for it on the occupancy grid. */
  lemma TallyIsNeighbourCount(cells: seq<Cell>, cellSize: real, width: nat, height: nat, q: Key)
    requires cellSize > 0.0 && width >= 3 && height >= 3
    requires KeysInRange(cells, cellSize, width, height) && DistinctKeys(cells, cellSize)
    requires InRange(q, width, height)
    ensures CountOf(Tally(NeighbourKeys(cells, cellSize, width, height)), q)
         == Layer.NeighbourCount(Occupancy(cells, cellSize, width, height), q.0, q.1)
  {
    NeighbourKeysCount(cells, q, cellSize, width, height);
    CountNearDistinct(cells, q, cellSize, width, height);
    OccupiedTorusNeighbours(cells, cellSize, width, height, q);
    Layer.NeighbourCountIsTorusCount(Occupancy(cells, cellSize, width, height), q.0, q.1);
  }

  /** No cell lies a whole grid width left of, or height above, the
      origin: the remainder `(x + dx + width) % width` is then taken of a
      non-negative number. */
  predicate KeysInReach(cells: seq<Cell>, cellSize: real, width: nat, height: nat)
    requires cellSize > 0.0
  {
    forall i :: 0 <= i < |cells| ==>
      CellKey(cells[i], cellSize).0 >= 1 - width && CellKey(cells[i], cellSize).1 >= 1 - height
  }

  /** Cells within reach only ever increment keys on the grid. */
  lemma {:induction false} NeighbourKeysInRange(cells: seq<Cell>, cellSize: real, width: nat, height: nat)
    requires cellSize > 0.0 && width > 0 && height > 0
    requires KeysInReach(cells, cellSize, width, height)
    ensures forall k :: k in NeighbourKeys(cells, cellSize, width, height) ==> InRange(k, width, height)
    decreases |cells|
  {
    if |cells| > 0 {
      var front := cells[..|cells| - 1];
      assert KeysInReach(front, cellSize, width, height) by {
        forall i | 0 <= i < |front|
          ensures CellKey(front[i], cellSize).0 >= 1 - width && CellKey(front[i], cellSize).1 >= 1 - height
        {
          assert front[i] == cells[i];
        }
      }
      NeighbourKeysInRange(front, cellSize, width, height);
    }
  }

  lemma KeySetConcat(a: seq<Cell>, b: seq<Cell>, cellSize: real)
    requires cellSize > 0.0
    ensures KeySet(a + b, cellSize) == KeySet(a, cellSize) + KeySet(b, cellSize)
  {
    forall k
      ensures k in KeySet(a + b, cellSize) <==> k in KeySet(a, cellSize) + KeySet(b, cellSize)
    {
      if k in KeySet(a + b, cellSize) {
        var i :| 0 <= i < |a + b| && CellKey((a + b)[i], cellSize) == k;
        if i >= |a| {
          assert (a + b)[i] == b[i - |a|];
        }
      }
      if k in KeySet(b, cellSize) {
        var i :| 0 <= i < |b| && CellKey(b[i], cellSize) == k;
        assert (a + b)[i + |a|] == b[i];
      }
      if k in KeySet(a, cellSize) {
        var i :| 0 <= i < |a| && CellKey(a[i], cellSize) == k;
        assert (a + b)[i] == a[i];
      }
    }
  }

  /** A square keeps a cell exactly when one was there and its count is 2 or 3. */
  lemma SurvivorKeys(cells: seq<Cell>, counts: map<Key, nat>, cellSize: real, q: Key)
    requires cellSize > 0.0
    ensures q in KeySet(Survivors(cells, counts, cellSize), cellSize)
        <==> q in KeySet(cells, cellSize) && CountOf(counts, q) in {2, 3}
  {
    var s := Survivors(cells, counts, cellSize);
    if q in KeySet(s, cellSize) {
      var i :| 0 <= i < |s| && CellKey(s[i], cellSize) == q;
      assert s[i] in s;
      var j :| 0 <= j < |cells| && cells[j] == s[i];
    }
    if q in KeySet(cells, cellSize) && CountOf(counts, q) in {2, 3} {
      var j :| 0 <= j < |cells| && CellKey(cells[j], cellSize) == q;
      assert cells[j] in s;
      var i :| 0 <= i < |s| && s[i] == cells[j];
    }
  }

  /** Newborns sit on exactly the birth keys. */
  lemma NewbornKeys(birthKeys: seq<Key>, cellSize: real, textureCount: nat, spawn: nat -> Spawn, q: Key)
    requires cellSize > 0.0 && textureCount > 0
    requires forall k :: k in birthKeys ==> k.0 >= 0 && k.1 >= 0
    ensures q in KeySet(Newborns(birthKeys, cellSize, textureCount, spawn), cellSize) <==> q in birthKeys
  {
    var b := Newborns(birthKeys, cellSize, textureCount, spawn);
    if q in KeySet(b, cellSize) {
      var i :| 0 <= i < |b| && CellKey(b[i], cellSize) == q;
      CentreKey(birthKeys[i], cellSize, b[i]);
    }
    if q in birthKeys {
      var i :| 0 <= i < |birthKeys| && birthKeys[i] == q;
      CentreKey(birthKeys[i], cellSize, b[i]);
    }
  }

  /** Which squares a generation occupies, in terms of the dictionary:
      the occupied ones counted 2 or 3 times and the empty ones counted
      exactly 3 times. */
  lemma GenerationKeys(cells: seq<Cell>, cellSize: real, width: nat, height: nat,
                       textureCount: nat, spawn: nat -> Spawn, q: Key)
    requires cellSize > 0.0 && width > 0 && height > 0 && textureCount > 0
    requires KeysInRange(cells, cellSize, width, height)
    ensures var keys := NeighbourKeys(cells, cellSize, width, height);
      q in KeySet(Generation(cells, cellSize, width, height, textureCount, spawn), cellSize)
      <==> || (q in KeySet(cells, cellSize) && CountOf(Tally(keys), q) in {2, 3})
           || (q !in KeySet(cells, cellSize) && multiset(keys)[q] == 3)
    ensures var keys := NeighbourKeys(cells, cellSize, width, height);
      multiset(keys)[q] > 0 ==> InRange(q, width, height)
  {
    var keys := NeighbourKeys(cells, cellSize, width, height);
    var counts := Tally(keys);
    var bk := BirthKeys(cells, keys, cellSize);
    var s := Survivors(cells, counts, cellSize);
    var b := Newborns(bk, cellSize, textureCount, spawn);
    NeighbourKeysInRange(cells, cellSize, width, height);
    assert forall k :: k in bk ==> InRange(k, width, height) by {
      forall k | k in bk
        ensures InRange(k, width, height)
      {
        assert multiset(keys)[k] > 0;
      }
    }
    KeySetConcat(s, b, cellSize);
    SurvivorKeys(cells, counts, cellSize, q);
    NewbornKeys(bk, cellSize, textureCount, spawn, q);
    if multiset(keys)[q] > 0 {
      assert q in keys;
    }
  }

  /** A slot is live after a layer step exactly when it is on the grid and
      the rule holds for it. */
  lemma StepLive(g: Layer.Grid, births: Layer.Pos -> Layer.Occupant, q: Key)
    requires Layer.Valid(g)
    ensures q in Layer.Live(Layer.Step(g, births))
        <==> Layer.InGrid(g, q) && Layer.LifeRule(Layer.Occupied(g, q), Layer.NeighbourCount(g, q.0, q.1))
  {
    Layer.LiveMembership(Layer.Step(g, births), q);
  }

  /** A square of the grid is occupied on the occupancy grid exactly when a
      cell maps to it. */
  lemma OccupancyAt(cells: seq<Cell>, cellSize: real, width: nat, height: nat, q: Key)
    requires cellSize > 0.0 && InRange(q, width, height)
    ensures var g := Occupancy(cells, cellSize, width, height);
      Layer.InGrid(g, q) && (Layer.Occupied(g, q) <==> q in KeySet(cells, cellSize))
  {
  }

  /** The list engine is Life on the torus: when the cells sit on distinct
      squares of a grid of at least 3 x 3 and there are textures to give
      newborns, a square is occupied after a generation exactly when the
      layer engine's step makes it live on the occupancy grid. */
  lemma GenerationIsLife(cells: seq<Cell>, cellSize: real, width: nat, height: nat,
                         textureCount: nat, spawn: nat -> Spawn, births: Layer.Pos -> Layer.Occupant, q: Key)
    requires cellSize > 0.0 && width >= 3 && height >= 3 && textureCount > 0
    requires KeysInRange(cells, cellSize, width, height) && DistinctKeys(cells, cellSize)
    ensures q in KeySet(Generation(cells, cellSize, width, height, textureCount, spawn), cellSize)
        <==> q in Layer.Live(Layer.Step(Occupancy(cells, cellSize, width, height), births))
  {
    var keys := NeighbourKeys(cells, cellSize, width, height);
    var g := Occupancy(cells, cellSize, width, height);
    var alive := q in KeySet(cells, cellSize);
    var n := multiset(keys)[q];
    GenerationKeys(cells, cellSize, width, height, textureCount, spawn, q);
    StepLive(g, births, q);
    CountOfTally(keys, q);
    if InRange(q, width, height) {
      TallyIsNeighbourCount(cells, cellSize, width, height, q);
      OccupancyAt(cells, cellSize, width, height, q);
      assert n == Layer.NeighbourCount(g, q.0, q.1);
    } else {
      assert !alive && n == 0;
    }
  }

  /** A cell off the grid on the far side (a position in the strip beyond
      the last whole square, or on the far edge itself) never survives:
      the wrapped keys that receive counts are all on the grid, while the
      cell's own key is not wrapped. */
  lemma StrayCellDies(cells: seq<Cell>, cellSize: real, width: nat, height: nat, c: Cell)
    requires cellSize > 0.0 && width > 0 && height > 0
    requires KeysInReach(cells, cellSize, width, height)
    requires c in cells && !InRange(CellKey(c, cellSize), width, height)
    ensures c !in Survivors(cells, Tally(NeighbourKeys(cells, cellSize, width, height)), cellSize)
  {
    NeighbourKeysInRange(cells, cellSize, width, height);
  }

  // ---------------------------------------------------------------------
  // Keeping the population up

  /** `(int)(initialCellCount * 0.2f)`: a fifth of the initial count,
      truncated toward zero. */
  function MinimumCells(initialCellCount: int): (m: int)
    ensures initialCellCount >= 0 ==> 0 <= m && 5 * m <= initialCellCount < 5 * m + 5
    ensures initialCellCount <= 0 ==> m == -((-initialCellCount) / 5)
  {
    var v := initialCellCount as real * 0.2;
    var m := Trunc(v);
    assert initialCellCount >= 0 ==> 5 * m <= initialCellCount < 5 * m + 5 by {
      if initialCellCount >= 0 {
        assert m as real <= v < m as real + 1.0;
        assert 5.0 * v == initialCellCount as real;
      }
    }
    assert initialCellCount <= 0 ==> m == -((-initialCellCount) / 5) by {
      if initialCellCount <= 0 {
        var n := -initialCellCount;
        assert v == -(n as real * 0.2);
        assert -m as real <= n as real * 0.2 < -m as real + 1.0;
        FifthFloor(n, -m);
      }
    }
    m
  }

  lemma FifthFloor(n: nat, q: int)
    requires q as real <= n as real * 0.2 < q as real + 1.0
    ensures q == n / 5
  {
    assert 5 * q <= n < 5 * q + 5;
    DivMod(n, 5);
    ModUnique(n, 5, q, n - 5 * q);
  }

  /** `random.Next(0, bound)`: a value below a positive bound, 0 for an empty range. */
  function RandomBelow(draw: nat, bound: nat): (v: nat)
    ensures bound > 0 ==> v < bound
    ensures bound == 0 ==> v == 0
  {
    if bound == 0 then 0 else draw % bound
  }

  /** The cell added to keep the population up from the draws `s`: at a
      random whole-pixel position of the viewport, flagged as born. */
  function Extra(view: Viewport, textureCount: nat, s: Spawn): (c: Cell)
    requires textureCount > 0
    ensures Cells.Valid(c) && c.isBorn && !c.isDying && c.texture < textureCount
    ensures 0.0 <= c.pos.x && (view.width > 0 ==> c.pos.x < view.width as real)
    ensures 0.0 <= c.pos.y && (view.height > 0 ==> c.pos.y < view.height as real)
    ensures c.pos.x == c.pos.x.Floor as real
    ensures c.pos.y == c.pos.y.Floor as real
  {
    var pos := Vec(RandomBelow(s.xDraw, view.width) as real, RandomBelow(s.yDraw, view.height) as real);
    NewCell(s.id, s.textureDraw % textureCount, pos, AssignDepth(s.depthRoll)).(isBorn := true)
  }

  /** The list `EnsureMinimumPopulation` leaves: the cells, followed, when
      they are fewer than a fifth of the initial count and a texture
      exists, by the extras drawn to reach that count. */
  function ToppedUp(e: Engine, view: Viewport, extras: nat -> Spawn): (cells: seq<Cell>)
    ensures |e.cells| <= |cells| && cells[..|e.cells|] == e.cells
    ensures e.textureCount > 0 ==> |cells| >= MinimumCells(e.initialCellCount)
    ensures |cells| > |e.cells| ==> |cells| == MinimumCells(e.initialCellCount)
    ensures forall i :: |e.cells| <= i < |cells| ==>
      e.textureCount > 0 && cells[i] == Extra(view, e.textureCount, extras(i - |e.cells|))
    ensures NoneDying(e.cells) ==> NoneDying(cells)
  {
    var minimum := MinimumCells(e.initialCellCount);
    if e.textureCount == 0 || minimum <= |e.cells| then e.cells
    else
      var added := seq(minimum - |e.cells|, i requires 0 <= i => Extra(view, e.textureCount, extras(i)));
      assert (e.cells + added)[..|e.cells|] == e.cells;
      e.cells + added
  }

  /** `EnsureMinimumPopulation`: below a fifth of the initial count, append
      new cells until the count is reached; the loop stops at once when
      there is no texture. The existing cells are untouched. */
  method EnsureMinimumPopulation(e: Engine, view: Viewport, extras: nat -> Spawn) returns (r: Engine)
    ensures r.initialCellCount == e.initialCellCount && r.textureCount == e.textureCount
    ensures |e.cells| <= |r.cells| && r.cells[..|e.cells|] == e.cells
    ensures e.textureCount == 0 ==> r.cells == e.cells
    ensures e.textureCount > 0 ==>
      |r.cells| == if |e.cells| < MinimumCells(e.initialCellCount) then MinimumCells(e.initialCellCount) else |e.cells|
    ensures forall i :: |e.cells| <= i < |r.cells| ==>
      e.textureCount > 0 && r.cells[i] == Extra(view, e.textureCount, extras(i - |e.cells|))
    ensures r == e.(cells := ToppedUp(e, view, extras))
  {
    var cells := e.cells;
    var minimum := MinimumCells(e.initialCellCount);
    if |cells| < minimum {
      var toAdd := minimum - |cells|;
      var i := 0;
      while i < toAdd
        invariant 0 <= i <= toAdd
        invariant |cells| == |e.cells| + i && cells[..|e.cells|] == e.cells
        invariant e.textureCount == 0 ==> i == 0
        invariant forall j :: |e.cells| <= j < |cells| ==>
          e.textureCount > 0 && cells[j] == Extra(view, e.textureCount, extras(j - |e.cells|))
      {
        if e.textureCount == 0 {
          break;
        }
        cells := cells + [Extra(view, e.textureCount, extras(i))];
        i := i + 1;
      }
    }
    r := e.(cells := cells);
    SameTopUp(e, cells, view, extras);
  }

  /** The list the loop builds is the one `ToppedUp` describes: the same
      prefix and the same extras, up to the same length. */
  lemma SameTopUp(e: Engine, cells: seq<Cell>, view: Viewport, extras: nat -> Spawn)
    requires |e.cells| <= |cells| && cells[..|e.cells|] == e.cells
    requires e.textureCount == 0 ==> cells == e.cells
    requires e.textureCount > 0 ==>
      |cells| == if |e.cells| < MinimumCells(e.initialCellCount) then MinimumCells(e.initialCellCount) else |e.cells|
    requires forall i :: |e.cells| <= i < |cells| ==>
      e.textureCount > 0 && cells[i] == Extra(view, e.textureCount, extras(i - |e.cells|))
    ensures cells == ToppedUp(e, view, extras)
  {
    var t := ToppedUp(e, view, extras);
    assert |t| == |cells|;
    forall i | 0 <= i < |cells|
      ensures cells[i] == t[i]
    {
      if i < |e.cells| {
        assert cells[i] == cells[..|e.cells|][i] && t[i] == t[..|e.cells|][i];
      }
    }
  }

  /** After the top-up with textures available the list holds at least the
      minimum, and the top-up adds no dying cell. */
  lemma EnsureMinimumReachesMinimum(e: Engine, r: Engine, view: Viewport, extras: nat -> Spawn)
    requires r.initialCellCount == e.initialCellCount && r.textureCount == e.textureCount
    requires |e.cells| <= |r.cells| && r.cells[..|e.cells|] == e.cells
    requires e.textureCount > 0 ==>
      |r.cells| == if |e.cells| < MinimumCells(e.initialCellCount) then MinimumCells(e.initialCellCount) else |e.cells|
    requires forall i :: |e.cells| <= i < |r.cells| ==>
      e.textureCount > 0 && r.cells[i] == Extra(view, e.textureCount, extras(i - |e.cells|))
    ensures e.textureCount > 0 ==> |r.cells| >= MinimumCells(e.initialCellCount)
    ensures NoneDying(e.cells) ==> NoneDying(r.cells)
  {
    if NoneDying(e.cells) {
      forall i | 0 <= i < |r.cells|
        ensures !r.cells[i].isDying
      {
        if i < |e.cells| {
          assert r.cells[i] == r.cells[..|e.cells|][i];
        }
      }
    }
  }

  // ---------------------------------------------------------------------
  // Removing finished cells

  /** `IsDying && Scale <= 0`: a cell whose zoom-out has shrunk it away. */
  predicate Removable(c: Cell) {
    c.isDying && c.scale <= 0.0
  }

  predicate Kept(c: Cell) {
    !Removable(c)
  }

  /** `RemoveDyingCells`: collect the removable cells (the first loop is
      a filter), then `Remove` each collected cell from the list. The
      result is the list without its removable cells, in the original order. */
  method RemoveDyingCells(cells: seq<Cell>) returns (r: seq<Cell>)
    ensures r == Filter(cells, Kept)
    ensures forall c :: c in r <==> c in cells && !Removable(c)
  {
    var toRemove := Filter(cells, Removable);
    r := RemoveEach(cells, toRemove);
  }

  /** The second loop of `RemoveDyingCells`: one `Remove` per collected
      cell. Since every copy of a removable cell was collected, every copy
      goes, and nothing else does. */
  method RemoveEach(cells: seq<Cell>, toRemove: seq<Cell>) returns (r: seq<Cell>)
    requires forall c :: c in toRemove ==> Removable(c)
    requires forall c :: Removable(c) ==> multiset(toRemove)[c] == multiset(cells)[c]
    ensures r == Filter(cells, Kept)
  {
    r := cells;
    var j := 0;
    while j < |toRemove|
      invariant 0 <= j <= |toRemove|
      invariant Filter(r, Kept) == Filter(cells, Kept)
      invariant forall c :: Removable(c) ==> multiset(r)[c] == multiset(toRemove[j..])[c]
    {
      RemoveStep(r, toRemove[j..]);
      assert toRemove[j..][1..] == toRemove[j + 1..];
      r := RemoveFirst(r, toRemove[j]);
      j := j + 1;
    }
    NoneRemovableLeft(r);
  }

  /** One `Remove` of a collected cell keeps the other cells and the
      pending removals in step. */
  lemma RemoveStep(r: seq<Cell>, pending: seq<Cell>)
    requires |pending| > 0 && Removable(pending[0])
    requires forall c :: Removable(c) ==> multiset(r)[c] == multiset(pending)[c]
    ensures Filter(RemoveFirst(r, pending[0]), Kept) == Filter(r, Kept)
    ensures forall c :: Removable(c) ==> multiset(RemoveFirst(r, pending[0]))[c] == multiset(pending[1..])[c]
  {
    var x := pending[0];
    assert pending == [x] + pending[1..];
    assert multiset(r)[x] > 0;
    FilterRemoveFirst(r, x, Kept);
  }

  lemma NoneRemovableLeft(r: seq<Cell>)
    requires forall c :: Removable(c) ==> multiset(r)[c] == 0
    ensures Filter(r, Kept) == r
  {
    FilterAll(r, Kept);
  }

  /** With no dying cell in the list nothing is removed. */
  lemma RemoveDyingNoOp(cells: seq<Cell>)
    requires NoneDying(cells)
    ensures Filter(cells, Kept) == cells
  {
    FilterAll(cells, Kept);
  }

  // ---------------------------------------------------------------------
  // Draw order

  predicate SortedByDepth(s: seq<Cell>) {
    forall i, j :: 0 <= i < j < |s| ==> s[i].depth <= s[j].depth
  }

  /** The cells at depth `d`. */
  function AtDepth(d: real): (f: Cell -> bool)
    ensures forall c :: f(c) <==> c.depth == d
  {
    (c: Cell) => c.depth == d
  }

  /** Appending a cell no shallower than every cell of a sorted list keeps
      it sorted. */
  lemma AppendSorted(s: seq<Cell>, x: Cell)
    requires SortedByDepth(s)
    requires forall y :: y in s ==> y.depth <= x.depth
    ensures SortedByDepth(s + [x])
  {
    forall i, j | 0 <= i < j < |s + [x]|
      ensures (s + [x])[i].depth <= (s + [x])[j].depth
    {
      if j == |s| {
        assert (s + [x])[i] in s;
      }
    }
  }

  /** Insert `c` into a depth-sorted list after every cell no deeper than it. */
  function InsertByDepth(c: Cell, s: seq<Cell>): (r: seq<Cell>)
    requires SortedByDepth(s)
    ensures SortedByDepth(r)
    ensures multiset(r) == multiset(s) + multiset{c}
    decreases |s|
  {
    if |s| == 0 || s[|s| - 1].depth <= c.depth then
      AppendSorted(s, c);
      s + [c]
    else
      var front := s[..|s| - 1];
      var last := s[|s| - 1];
      assert s == front + [last];
      var r' := InsertByDepth(c, front);
      assert forall x :: x in r' ==> x.depth <= last.depth by {
        forall x | x in r'
          ensures x.depth <= last.depth
        {
          assert x in multiset(r');
          if x != c {
            assert x in front;
          }
        }
      }
      AppendSorted(r', last);
      r' + [last]
  }

  /** `OrderBy(c => c.Depth)`: a stable sort by depth, inserting the cells
      in list order. */
  function SortByDepth(s: seq<Cell>): (r: seq<Cell>)
    ensures SortedByDepth(r)
    ensures multiset(r) == multiset(s)
    decreases |s|
  {
    if |s| == 0 then []
    else
      assert s == s[..|s| - 1] + [s[|s| - 1]];
      InsertByDepth(s[|s| - 1], SortByDepth(s[..|s| - 1]))
  }

  /** Inserting keeps the order among cells of equal depth and puts the new
      cell after them. */
  lemma {:induction false} InsertStable(c: Cell, s: seq<Cell>, d: real)
    requires SortedByDepth(s)
    ensures Filter(InsertByDepth(c, s), AtDepth(d))
         == Filter(s, AtDepth(d)) + if c.depth == d then [c] else []
    decreases |s|
  {
    if |s| == 0 || s[|s| - 1].depth <= c.depth {
      assert InsertByDepth(c, s) == s + [c];
      FilterSnoc(s, c, AtDepth(d));
    } else {
      var front := s[..|s| - 1];
      assert s == front + [s[|s| - 1]];
      InsertStable(c, front, d);
      assert InsertByDepth(c, s) == InsertByDepth(c, front) + [s[|s| - 1]];
      FilterShift(InsertByDepth(c, front), front, s[|s| - 1],
                  if c.depth == d then [c] else [], AtDepth(d));
    }
  }

  /** The sort is stable: the cells of each depth keep their list order. */
  lemma {:induction false} SortStable(s: seq<Cell>, d: real)
    ensures Filter(SortByDepth(s), AtDepth(d)) == Filter(s, AtDepth(d))
    decreases |s|
  {
    if |s| > 0 {
      var front := s[..|s| - 1];
      var last := s[|s| - 1];
      assert s == front + [last];
      SortStable(front, d);
      InsertStable(last, SortByDepth(front), d);
      FilterSnoc(front, last, AtDepth(d));
    }
  }

  /** `Draw`: the cells in the order they are drawn, nearest first. */
  method DrawOrder(cells: seq<Cell>) returns (order: seq<Cell>)
    ensures SortedByDepth(order)
    ensures multiset(order) == multiset(cells)
    ensures forall d :: Filter(order, AtDepth(d)) == Filter(cells, AtDepth(d))
  {
    order := SortByDepth(cells);
    forall d
      ensures Filter(order, AtDepth(d)) == Filter(cells, AtDepth(d))
    {
      SortStable(cells, d);
    }
  }

  // ---------------------------------------------------------------------
  // One frame

  /** The animation step of every cell's `Update`. */
  function AnimateAll(cells: seq<Cell>, t: Tuning): (r: seq<Cell>)
    requires ValidTuning(t)
    ensures |r| == |cells|
    ensures forall i :: 0 <= i < |r| ==> r[i] == Animate(cells[i], t)
    ensures NoneDying(cells) ==> NoneDying(r)
  {
    seq(|cells|, i requires 0 <= i < |cells| => Animate(cells[i], t))
  }

  /** The end of `Update`: top the population up, then remove finished
      cells. With no dying cell present, nothing is removed and the result
      is the topped-up list. */
  function Settle(e: Engine, view: Viewport, extras: nat -> Spawn): (r: Engine)
    ensures r.initialCellCount == e.initialCellCount && r.textureCount == e.textureCount
    ensures forall c :: c in r.cells ==> !Removable(c)
    ensures forall c :: c in e.cells && !Removable(c) ==> c in r.cells
    ensures NoneDying(e.cells) ==> r.cells == ToppedUp(e, view, extras)
    ensures NoneDying(e.cells) ==> NoneDying(r.cells)
    ensures NoneDying(e.cells) && e.textureCount > 0 ==>
      |r.cells| >= MinimumCells(e.initialCellCount)
  {
    var topped := ToppedUp(e, view, extras);
    SettleKeeps(e.cells, topped);
    e.(cells := Filter(topped, Kept))
  }

  /** A list that extends `cells` holds each of its cells, and filtering it
      removes nothing when no cell is dying. */
  lemma SettleKeeps(cells: seq<Cell>, topped: seq<Cell>)
    requires |cells| <= |topped| && topped[..|cells|] == cells
    ensures forall c :: c in cells ==> c in topped
    ensures NoneDying(topped) ==> Filter(topped, Kept) == topped
  {
    forall c | c in cells
      ensures c in topped
    {
      var i :| 0 <= i < |cells| && cells[i] == c;
      assert topped[..|cells|][i] == c;
    }
    if NoneDying(topped) {
      RemoveDyingNoOp(topped);
    }
  }

  /** `Update`: animate every cell, apply the rules, top the population up,
      then remove finished cells. Motion and the sound intensity are not
      modelled. On success, a non-empty list is replaced by the generation
      of its animated cells, followed by any extras; an empty list is only
      topped up. When the rules throw, the cells have already been animated
      in place; `Game.Tick` keeps them. */
  function Update(e: Engine, view: Viewport, cellSize: real, t: Tuning,
                  spawn: nat -> Spawn, extras: nat -> Spawn): (r: Result<Engine>)
    requires cellSize > 0.0 && ValidTuning(t)
    ensures r.Failure? <==>
      |e.cells| > 0 &&
      (cellSize < 1.0 || view.width < Trunc(cellSize) || view.height < Trunc(cellSize))
    ensures r.Failure? ==> r.error == DivideByZero
    ensures r.Success? ==>
      r.value.initialCellCount == e.initialCellCount && r.value.textureCount == e.textureCount
    ensures r.Success? && NoneDying(e.cells) ==> NoneDying(r.value.cells)
    ensures r.Success? && NoneDying(e.cells) && e.textureCount > 0 ==>
      |r.value.cells| >= MinimumCells(e.initialCellCount)
    // an empty list gets only the extras
    ensures r.Success? && |e.cells| == 0 ==> r.value == e.(cells := ToppedUp(e, view, extras))
    // a non-empty list runs one generation of its animated cells
    ensures r.Success? && |e.cells| > 0 ==>
      EngineGrid(view, cellSize).Success? &&
      var d := EngineGrid(view, cellSize).value;
      var next := Generation(AnimateAll(e.cells, t), cellSize, d.width, d.height, e.textureCount, spawn);
      && r.value == Settle(e.(cells := next), view, extras)
      && (NoneDying(e.cells) ==> |next| <= |r.value.cells| && r.value.cells[..|next|] == next)
  {
    var animated := e.(cells := AnimateAll(e.cells, t));
    match ApplyRules(animated, view, cellSize, spawn)
    case Failure(err) => Failure(err)
    case Success(applied) =>
      if |e.cells| == 0 then Success(Settle(applied, view, extras))
      else
        var d := EngineGrid(view, cellSize).value;
        GenerationNoneDying(animated.cells, cellSize, d.width, d.height, e.textureCount, spawn);
        Success(Settle(applied, view, extras))
  }
}

=== FILE: lattice.dfy ===
/** Integer lattice arithmetic common to both engines: the grid size derived
    from the viewport, toroidal wrapping and the eight neighbour offsets. */
module Lattice {
  import opened Wrappers
  import opened Numerics

  datatype Dims = Dims(width: nat, height: nat)

  /** `viewportWidth / (int)cellSize` and `viewportHeight / (int)cellSize`:
      the integer quotients, or a division by zero when the cell size
      truncates to 0. */
  function GridDims(viewportWidth: nat, viewportHeight: nat, cellSize: real): (r: Result<Dims>)
    requires cellSize > 0.0
    ensures r.Success? <==> cellSize >= 1.0
    ensures r.Success? ==>
      var k := Trunc(cellSize);
      && r.value.width * k <= viewportWidth < (r.value.width + 1) * k
      && r.value.height * k <= viewportHeight < (r.value.height + 1) * k
    ensures r.Failure? ==> r.error == DivideByZero
  {
    var k := Trunc(cellSize);
    assert k == 0 <==> cellSize < 1.0;
    if k == 0 then Failure(DivideByZero)
    else
      var w, h := viewportWidth / k, viewportHeight / k;
      QuotientBounds(viewportWidth, k);
      QuotientBounds(viewportHeight, k);
      Success(Dims(w, h))
  }

  lemma QuotientBounds(a: nat, k: int)
    requires k > 0
    ensures (a / k) * k <= a < (a / k + 1) * k
  {
    DivMod(a, k);
    assert (a / k + 1) * k == (a / k) * k + k;
  }

  /** `(c + d + n) % n` with C#'s remainder. */
  function Wrap(c: int, d: int, n: int): (r: int)
    requires n > 0
    ensures 0 <= c + d + n ==> 0 <= r < n && r == (c + d) % n
    ensures c + d + n < 0 ==> r <= 0
  {
    if 0 <= c + d + n then
      ShiftMod(c + d, n);
      CsRem(c + d + n, n)
    else
      CsRem(c + d + n, n)
  }

  lemma ShiftMod(a: int, n: int)
    requires n > 0 && 0 <= a + n
    ensures (a + n) % n == a % n
  {
    var q := (a + n) / n;
    DivMod(a + n, n);
    assert a == (q - 1) * n + (a + n) % n;
    ModUnique(a, n, q - 1, (a + n) % n);
  }

  /** Wrapping a coordinate of the grid by at most one step: only the two
      edges move to the opposite edge. */
  lemma WrapNear(c: int, d: int, n: int)
    requires n > 0 && 0 <= c < n && -1 <= d <= 1
    ensures Wrap(c, d, n) == if c + d < 0 then c + d + n else if c + d >= n then c + d - n else c + d
  {
    if c + d < 0 {
      ModUnique(c + d, n, -1, c + d + n);
    } else if c + d >= n {
      ModUnique(c + d, n, 1, c + d - n);
    } else {
      ModUnique(c + d, n, 0, c + d);
    }
  }

  /** With at least three columns the three wrapped offsets land on three different columns. */
  lemma WrapInjective(c: int, d1: int, d2: int, n: int)
    requires n >= 3 && 0 <= c < n && -1 <= d1 <= 1 && -1 <= d2 <= 1
    ensures Wrap(c, d1, n) == Wrap(c, d2, n) ==> d1 == d2
  {
    WrapNear(c, d1, n);
    WrapNear(c, d2, n);
  }

  /** The offsets visited by the `dx`/`dy` loops, outer `dx`, inner `dy`,
      with the `(0, 0)` iteration skipped. */
  const Offsets: seq<(int, int)> :=
    [(-1, -1), (-1, 0), (-1, 1), (0, -1), (0, 1), (1, -1), (1, 0), (1, 1)]

  /** Position of `(dx, dy)` in `Offsets`, i.e. how many non-centre
      offsets the loops have visited before reaching it. */
  function OffsetIndex(dx: int, dy: int): (i: nat)
    requires -1 <= dx <= 1 && -1 <= dy <= 1 && (dx, dy) != (0, 0)
    ensures i < |Offsets| && Offsets[i] == (dx, dy)
  {
    var k := (dx + 1) * 3 + (dy + 1);
    if k < 4 then k else k - 1
  }
}

=== FILE: layer.dfy ===
/** The layer engine: a `width` x `height` toroidal grid of optional
    occupants evolved by the B3/S23 rule, plus the sound-driven population
    adjustment. Occupants are opaque ids; the cell objects the program
    places in the slots are not modelled here. */
module Layer {
  import opened Wrappers
  import opened Numerics
  import opened Lattice
  import opened Seqs

  /** An occupant of a slot, identified by reference identity. */
  type Occupant = nat
  type Slot = Option<Occupant>
  type Pos = (int, int)

  /** `slots[x][y]` is the C# `grid[x, y]`. */
  datatype Grid = Grid(width: nat, height: nat, slots: seq<seq<Slot>>)

  predicate Valid(g: Grid) {
    |g.slots| == g.width && forall x :: 0 <= x < g.width ==> |g.slots[x]| == g.height
  }

  predicate InGrid(g: Grid, p: Pos) {
    0 <= p.0 < g.width && 0 <= p.1 < g.height
  }

  predicate Occupied(g: Grid, p: Pos)
    requires Valid(g) && InGrid(g, p)
  {
    g.slots[p.0][p.1].Some?
  }

  /** The occupied slots. */
  function Live(g: Grid): set<Pos>
    requires Valid(g)
  {
    set x, y | 0 <= x < g.width && 0 <= y < g.height && g.slots[x][y].Some? :: (x, y)
  }

  /** The empty slots. */
  function Dead(g: Grid): set<Pos>
    requires Valid(g)
  {
    set x, y | 0 <= x < g.width && 0 <= y < g.height && g.slots[x][y].None? :: (x, y)
  }

  /** The grid with every slot empty. */
  function EmptyGrid(width: nat, height: nat): (g: Grid)
    ensures Valid(g) && g.width == width && g.height == height
    ensures forall x, y :: 0 <= x < width && 0 <= y < height ==> g.slots[x][y] == None
  {
    Grid(width, height, seq(width, x => seq(height, y => None)))
  }

  /** `InitializeGrid`: both buffers sized to the integer quotients of the
      viewport by the truncated cell size, all slots empty. */
  function InitializeGrid(viewportWidth: nat, viewportHeight: nat, cellSize: real): (r: Result<Grid>)
    requires cellSize > 0.0
    ensures r.Success? <==> cellSize >= 1.0
    ensures r.Failure? ==> r.error == DivideByZero
    ensures r.Success? ==>
      && Valid(r.value)
      && GridDims(viewportWidth, viewportHeight, cellSize) == Success(Dims(r.value.width, r.value.height))
      && Live(r.value) == {}
  {
    match GridDims(viewportWidth, viewportHeight, cellSize)
    case Failure(e) => Failure(e)
    case Success(d) => Success(EmptyGrid(d.width, d.height))
  }

  // ---------------------------------------------------------------------
  // Neighbour counting

  /** The slot visited for offset `Offsets[i]` around `(x, y)`. */
  function NeighbourPos(g: Grid, x: int, y: int, i: nat): (p: Pos)
    requires g.width > 0 && g.height > 0 && i < |Offsets|
  {
    (Wrap(x, Offsets[i].0, g.width), Wrap(y, Offsets[i].1, g.height))
  }

  /** The eight wrapped neighbour slots in the order the loops visit them. */
  function NeighbourPositions(g: Grid, x: int, y: int): (ps: seq<Pos>)
    requires g.width > 0 && g.height > 0
    requires 0 <= x < g.width && 0 <= y < g.height
    ensures |ps| == 8
    ensures forall i :: 0 <= i < 8 ==> ps[i] == NeighbourPos(g, x, y, i) && InGrid(g, ps[i])
  {
    seq(8, i requires 0 <= i < 8 => NeighbourPos(g, x, y, i))
  }

  /** How many of the listed slots are occupied (each listed slot counted
      once per occurrence). */
  function CountOccupied(g: Grid, ps: seq<Pos>): (n: nat)
    requires Valid(g) && forall i :: 0 <= i < |ps| ==> InGrid(g, ps[i])
    ensures n <= |ps|
  {
    if |ps| == 0 then 0
    else CountOccupied(g, ps[..|ps| - 1]) + if Occupied(g, ps[|ps| - 1]) then 1 else 0
  }

  lemma CountOccupiedSnoc(g: Grid, ps: seq<Pos>, k: nat)
    requires Valid(g) && forall i :: 0 <= i < |ps| ==> InGrid(g, ps[i])
    requires k < |ps|
    ensures CountOccupied(g, ps[..k + 1])
         == CountOccupied(g, ps[..k]) + if Occupied(g, ps[k]) then 1 else 0
  {
    assert ps[..k + 1][..k] == ps[..k];
  }

  /** The neighbour count of `(x, y)` as the program computes it. */
  function NeighbourCount(g: Grid, x: int, y: int): (n: nat)
    requires Valid(g) && g.width > 0 && g.height > 0
    requires 0 <= x < g.width && 0 <= y < g.height
    ensures n <= 8
  {
    CountOccupied(g, NeighbourPositions(g, x, y))
  }

  /** How many of the eight offsets the `dx`/`dy` loops have handled before
      reaching `(dx, dy)`; `(2, -1)` is the state after the outer loop. */
  function Visited(dx: int, dy: int): (k: nat)
    requires -1 <= dx <= 2 && -1 <= dy <= 2
    requires dx == 2 ==> dy == -1
    ensures k <= 8
  {
    var k := (dx + 1) * 3 + (dy + 1);
    if k > 4 then k - 1 else k
  }

  /** The occupied slots among the first `k` neighbour slots of `(x, y)`. */
  function Counted(g: Grid, x: int, y: int, k: nat): (n: nat)
    requires Valid(g) && g.width > 0 && g.height > 0
    requires 0 <= x < g.width && 0 <= y < g.height && k <= 8
  {
    CountOccupied(g, NeighbourPositions(g, x, y)[..k])
  }

  /** One iteration of the inner loop advances the counted prefix by the slot it visits. */
  lemma CountStep(g: Grid, x: int, y: int, dx: int, dy: int, nx: int, ny: int)
    requires Valid(g) && g.width > 0 && g.height > 0
    requires 0 <= x < g.width && 0 <= y < g.height
    requires -1 <= dx <= 1 && -1 <= dy <= 1 && (dx, dy) != (0, 0)
    requires nx == Wrap(x, dx, g.width) && ny == Wrap(y, dy, g.height)
    ensures 0 <= nx < g.width && 0 <= ny < g.height
    ensures Counted(g, x, y, Visited(dx, dy + 1))
         == Counted(g, x, y, Visited(dx, dy)) + if g.slots[nx][ny].Some? then 1 else 0
  {
    var ps := NeighbourPositions(g, x, y);
    var k := Visited(dx, dy);
    assert k == OffsetIndex(dx, dy);
    assert Visited(dx, dy + 1) == k + 1;
    assert ps[k] == (nx, ny);
    CountOccupiedSnoc(g, ps, k);
  }

  /** One pass of the inner `dy` loop: the slot at offset `(dx, dy)` is
      counted when occupied, and the slot itself is skipped. */
  method CountSlot(g: Grid, x: int, y: int, dx: int, dy: int, before: nat) returns (count: nat)
    requires Valid(g) && g.width > 0 && g.height > 0
    requires 0 <= x < g.width && 0 <= y < g.height && -1 <= dx <= 1 && -1 <= dy <= 1
    requires before == Counted(g, x, y, Visited(dx, dy))
    ensures count == Counted(g, x, y, Visited(dx, dy + 1))
  {
    count := before;
    var nx := Wrap(x, dx, g.width);
    var ny := Wrap(y, dy, g.height);
    if !(dx == 0 && dy == 0) {
      CountStep(g, x, y, dx, dy, nx, ny);
      if g.slots[nx][ny].Some? {
        count := count + 1;
      }
    } else {
      assert Visited(dx, dy + 1) == Visited(dx, dy);
    }
  }

  /** The inner `dy` loop of `CountLiveNeighbors` for one `dx`. */
  method CountColumn(g: Grid, x: int, y: int, dx: int, start: nat) returns (count: nat)
    requires Valid(g) && g.width > 0 && g.height > 0
    requires 0 <= x < g.width && 0 <= y < g.height && -1 <= dx <= 1
    requires start == Counted(g, x, y, Visited(dx, -1))
    ensures count == Counted(g, x, y, Visited(dx + 1, -1))
  {
    count := start;
    var dy := -1;
    while dy <= 1
      invariant -1 <= dy <= 2
      invariant count == Counted(g, x, y, Visited(dx, dy))
    {
      count := CountSlot(g, x, y, dx, dy, count);
      dy := dy + 1;
    }
    assert dy == 2;
    ghost var k := Visited(dx, 2);
    assert k == Visited(dx + 1, -1);
    assert count == Counted(g, x, y, k);
  }

  /** `CountLiveNeighbors`: the nested `dx`/`dy` loops with the wrapped
      coordinates `(x + dx + width) % width` and `(y + dy + height) % height`,
      skipping the slot itself. */
  method CountLiveNeighbors(g: Grid, x: int, y: int) returns (count: nat)
    requires Valid(g) && g.width > 0 && g.height > 0
    requires 0 <= x < g.width && 0 <= y < g.height
    ensures count == NeighbourCount(g, x, y)
    ensures count <= 8
  {
    count := 0;
    var dx := -1;
    while dx <= 1
      invariant -1 <= dx <= 2
      invariant count == Counted(g, x, y, Visited(dx, -1))
    {
      count := CountColumn(g, x, y, dx, count);
      dx := dx + 1;
    }
    assert NeighbourPositions(g, x, y)[..8] == NeighbourPositions(g, x, y);
  }

  // ---------------------------------------------------------------------
  // The neighbourhood on the torus, defined without `%`

  /** `a` and `b` are equal or adjacent on a cycle of length `n`. */
  predicate Adjacent(a: int, b: int, n: int) {
    a == b || a - b == 1 || b - a == 1 || a - b == n - 1 || b - a == n - 1
  }

  /** The other slots within one step of `(x, y)` on the torus. */
  function TorusNeighbours(g: Grid, x: int, y: int): set<Pos> {
    set nx, ny | 0 <= nx < g.width && 0 <= ny < g.height && (nx, ny) != (x, y)
                 && Adjacent(nx, x, g.width) && Adjacent(ny, y, g.height) :: (nx, ny)
  }

  function LiveTorusNeighbours(g: Grid, x: int, y: int): set<Pos>
    requires Valid(g)
  {
    set p | p in TorusNeighbours(g, x, y) && Occupied(g, p)
  }

  /** On a grid of at least 3 x 3 the eight wrapped offsets are eight
      different slots, none of them `(x, y)`, and they are exactly the
      torus neighbours. */
  lemma NeighbourPositionsAreTorusNeighbours(g: Grid, x: int, y: int)
    requires Valid(g) && g.width >= 3 && g.height >= 3
    requires 0 <= x < g.width && 0 <= y < g.height
    ensures Distinct(NeighbourPositions(g, x, y))
    ensures (set p | p in NeighbourPositions(g, x, y)) == TorusNeighbours(g, x, y)
  {
    var ps := NeighbourPositions(g, x, y);
    forall i, j | 0 <= i < j < 8
      ensures ps[i] != ps[j]
    {
      NeighbourPosInjective(g, x, y, i, j);
    }
    forall i | 0 <= i < 8
      ensures ps[i] in TorusNeighbours(g, x, y)
    {
      NeighbourPosIsTorusNeighbour(g, x, y, i);
    }
    forall p | p in TorusNeighbours(g, x, y)
      ensures p in ps
    {
      var i := TorusNeighbourIsNeighbourPos(g, x, y, p);
      assert ps[i] == p;
    }
  }

  lemma NeighbourPosInjective(g: Grid, x: int, y: int, i: nat, j: nat)
    requires g.width >= 3 && g.height >= 3
    requires 0 <= x < g.width && 0 <= y < g.height
    requires i < j < 8
    ensures NeighbourPos(g, x, y, i) != NeighbourPos(g, x, y, j)
  {
    assert Offsets[i] != Offsets[j];
    WrapInjective(x, Offsets[i].0, Offsets[j].0, g.width);
    WrapInjective(y, Offsets[i].1, Offsets[j].1, g.height);
  }

  lemma NeighbourPosIsTorusNeighbour(g: Grid, x: int, y: int, i: nat)
    requires g.width >= 3 && g.height >= 3
    requires 0 <= x < g.width && 0 <= y < g.height
    requires i < 8
    ensures NeighbourPos(g, x, y, i) in TorusNeighbours(g, x, y)
  {
    var (dx, dy) := Offsets[i];
    assert (dx, dy) != (0, 0);
    WrapNear(x, dx, g.width);
    WrapNear(y, dy, g.height);
  }

  lemma TorusNeighbourIsNeighbourPos(g: Grid, x: int, y: int, p: Pos) returns (i: nat)
    requires g.width >= 3 && g.height >= 3
    requires 0 <= x < g.width && 0 <= y < g.height
    requires p in TorusNeighbours(g, x, y)
    ensures i < 8 && NeighbourPos(g, x, y, i) == p
  {
    var (nx, ny) := p;
    var dx := if nx == x then 0 else if nx == x + 1 || nx == x + 1 - g.width then 1 else -1;
    var dy := if ny == y then 0 else if ny == y + 1 || ny == y + 1 - g.height then 1 else -1;
    WrapNear(x, dx, g.width);
    WrapNear(y, dy, g.height);
    i := OffsetIndex(dx, dy);
  }

  /** The occupied slots of a list of slots, as a set. */
  function OccupiedAmong(g: Grid, ps: seq<Pos>): (s: set<Pos>)
    requires Valid(g) && forall i :: 0 <= i < |ps| ==> InGrid(g, ps[i])
  {
    set p | p in ps && Occupied(g, p)
  }

  lemma OccupiedAmongSnoc(g: Grid, ps: seq<Pos>)
    requires Valid(g) && forall i :: 0 <= i < |ps| ==> InGrid(g, ps[i])
    requires |ps| > 0
    ensures var last := ps[|ps| - 1];
      OccupiedAmong(g, ps)
      == OccupiedAmong(g, ps[..|ps| - 1]) + if Occupied(g, last) then {last} else {}
  {
  }

  /** Counting a duplicate-free list of slots counts the set of its occupied slots. */
  lemma {:induction false} CountOccupiedDistinct(g: Grid, ps: seq<Pos>)
    requires Valid(g) && forall i :: 0 <= i < |ps| ==> InGrid(g, ps[i])
    requires Distinct(ps)
    ensures CountOccupied(g, ps) == |OccupiedAmong(g, ps)|
    decreases |ps|
  {
    if |ps| > 0 {
      var ps' := ps[..|ps| - 1];
      var last := ps[|ps| - 1];
      CountOccupiedDistinct(g, ps');
      OccupiedAmongSnoc(g, ps);
      assert last !in OccupiedAmong(g, ps') by {
        assert last !in ps';
      }
    }
  }

  /** On a grid of at least 3 x 3 the program's count is the number of
      occupied torus neighbours. */
  lemma NeighbourCountIsTorusCount(g: Grid, x: int, y: int)
    requires Valid(g) && g.width >= 3 && g.height >= 3
    requires 0 <= x < g.width && 0 <= y < g.height
    ensures NeighbourCount(g, x, y) == |LiveTorusNeighbours(g, x, y)|
    ensures |TorusNeighbours(g, x, y)| == 8
    ensures (x, y) !in TorusNeighbours(g, x, y)
  {
    var ps := NeighbourPositions(g, x, y);
    NeighbourPositionsAreTorusNeighbours(g, x, y);
    CountOccupiedDistinct(g, ps);
    DistinctCard(ps);
    assert OccupiedAmong(g, ps) == LiveTorusNeighbours(g, x, y);
  }

  /** Toroidal wrap: the corner slots `(0, 0)` and `(width - 1, height - 1)` see each other. */
  lemma CornersAreNeighbours(g: Grid)
    requires Valid(g) && g.width > 0 && g.height > 0
    ensures (g.width - 1, g.height - 1) in NeighbourPositions(g, 0, 0)
    ensures (0, 0) in NeighbourPositions(g, g.width - 1, g.height - 1)
  {
    WrapNear(0, -1, g.width);
    WrapNear(0, -1, g.height);
    WrapNear(g.width - 1, 1, g.width);
    WrapNear(g.height - 1, 1, g.height);
    assert NeighbourPositions(g, 0, 0)[0] == (g.width - 1, g.height - 1);
    assert NeighbourPositions(g, g.width - 1, g.height - 1)[7] == (0, 0);
  }

  /** Why the count needs at least 3 x 3: on a 1 x 1 grid every offset wraps
      back to the slot itself, which is then counted eight times. */
  lemma SingleSlotCountsItself(g: Grid)
    requires Valid(g) && g.width == 1 && g.height == 1 && g.slots[0][0].Some?
    ensures NeighbourCount(g, 0, 0) == 8
  {
    var ps := NeighbourPositions(g, 0, 0);
    forall i | 0 <= i < 8
      ensures ps[i] == (0, 0)
    {
    }
    assert forall k :: 0 <= k <= 8 ==> CountOccupied(g, ps[..k]) == k by {
      forall k | 0 <= k <= 8
        ensures CountOccupied(g, ps[..k]) == k
      {
        CountPrefixAllOccupied(g, ps, k);
      }
    }
    assert ps[..8] == ps;
  }

  lemma {:induction false} CountPrefixAllOccupied(g: Grid, ps: seq<Pos>, k: nat)
    requires Valid(g) && forall i :: 0 <= i < |ps| ==> InGrid(g, ps[i]) && Occupied(g, ps[i])
    requires k <= |ps|
    ensures CountOccupied(g, ps[..k]) == k
  {
    if k > 0 {
      CountOccupiedSnoc(g, ps, k - 1);
      CountPrefixAllOccupied(g, ps, k - 1);
    }
  }

  // ---------------------------------------------------------------------
  // One generation

  /** The B3/S23 rule: a live slot survives with 2 or 3 live neighbours, an
      empty slot is born with exactly 3. */
  predicate LifeRule(alive: bool, n: int) {
    if alive then n == 2 || n == 3 else n == 3
  }

  /** The value `ApplyRules` writes to `nextGrid[x, y]`; `newborn` is the
      cell it would create there. */
  function NextSlot(g: Grid, x: int, y: int, newborn: Occupant): (s: Slot)
    requires Valid(g) && 0 <= x < g.width && 0 <= y < g.height
    ensures s.Some? <==> LifeRule(g.slots[x][y].Some?, NeighbourCount(g, x, y))
    ensures s.Some? && g.slots[x][y].Some? ==> s == g.slots[x][y]
    ensures s.Some? && g.slots[x][y].None? ==> s == Some(newborn)
  {
    var n := NeighbourCount(g, x, y);
    if g.slots[x][y].Some? then
      if n == 2 || n == 3 then g.slots[x][y] else None
    else
      if n == 3 then Some(newborn) else None
  }

  /** The next generation, a function of the current grid alone; `births`
      names the occupant a birth at each slot would create. */
  function Step(g: Grid, births: Pos -> Occupant): (r: Grid)
    requires Valid(g)
    ensures Valid(r) && r.width == g.width && r.height == g.height
    ensures forall x, y :: 0 <= x < g.width && 0 <= y < g.height ==>
      r.slots[x][y] == NextSlot(g, x, y, births((x, y)))
  {
    Grid(g.width, g.height,
         seq(g.width, x requires 0 <= x < g.width =>
           seq(g.height, y requires 0 <= y < g.height => NextSlot(g, x, y, births((x, y))))))
  }

  /** The two buffers of a layer: `grid` is shown, `nextGrid` is scratch. */
  datatype Buffers = Buffers(grid: Grid, nextGrid: Grid)

  predicate ValidBuffers(b: Buffers) {
    && Valid(b.grid) && Valid(b.nextGrid)
    && b.grid.width == b.nextGrid.width && b.grid.height == b.nextGrid.height
  }

  /** An empty slot with exactly three live neighbours: where a step
      creates a new cell. */
  predicate BirthAt(g: Grid, x: int, y: int)
    requires Valid(g) && g.width > 0 && g.height > 0 && 0 <= x < g.width && 0 <= y < g.height
  {
    g.slots[x][y].None? && NeighbourCount(g, x, y) == 3
  }

  /** Some slot of the grid is a birth slot. */
  predicate HasBirth(g: Grid)
    requires Valid(g)
  {
    exists x, y :: 0 <= x < g.width && 0 <= y < g.height && BirthAt(g, x, y)
  }

  /** Some slot in the first `x` columns is a birth slot. */
  predicate BirthBefore(g: Grid, x: int)
    requires Valid(g) && x <= g.width
  {
    exists i, j :: 0 <= i < x && 0 <= j < g.height && BirthAt(g, i, j)
  }

  /** Adding column `x` to the scanned columns adds its birth slots. */
  lemma BirthBeforeStep(g: Grid, x: int)
    requires Valid(g) && 0 <= x < g.width
    ensures BirthBefore(g, x + 1)
        <==> BirthBefore(g, x) || exists y :: 0 <= y < g.height && BirthAt(g, x, y)
  {
    if BirthBefore(g, x + 1) {
      var i, j :| 0 <= i < x + 1 && 0 <= j < g.height && BirthAt(g, i, j);
      if i == x {
        assert BirthAt(g, x, j);
      } else {
        assert BirthBefore(g, x);
      }
    }
  }

  /** The inner `y` loop of `ApplyRules` for column `x`, writing into the
      cleared column of `nextGrid`. A birth picks a texture from the list,
      which throws when the list is empty. */
  method ApplyColumn(g: Grid, x: int, textureCount: nat, births: Pos -> Occupant, cleared: seq<Slot>)
    returns (r: Result<seq<Slot>>)
    requires Valid(g) && 0 <= x < g.width && |cleared| == g.height
    ensures r.Failure? <==>
      textureCount == 0 && exists y :: 0 <= y < g.height && BirthAt(g, x, y)
    ensures r.Failure? ==> r.error == EmptyTextureList
    ensures r.Success? ==>
      |r.value| == g.height &&
      forall j :: 0 <= j < g.height ==> r.value[j] == NextSlot(g, x, j, births((x, j)))
  {
    var h := g.height;
    var column := cleared;
    var y := 0;
    while y < h
      invariant 0 <= y <= h && |column| == h
      invariant forall j :: 0 <= j < y ==> column[j] == NextSlot(g, x, j, births((x, j)))
      invariant textureCount == 0 ==> forall j :: 0 <= j < y ==> !BirthAt(g, x, j)
    {
      var liveNeighbors := CountLiveNeighbors(g, x, y);
      var v: Slot;
      if g.slots[x][y].Some? {
        if liveNeighbors == 2 || liveNeighbors == 3 {
          v := g.slots[x][y];
        } else {
          v := None;
        }
      } else {
        if liveNeighbors == 3 {
          if textureCount == 0 {
            assert BirthAt(g, x, y);
            return Failure(EmptyTextureList);
          }
          v := Some(births((x, y)));
        } else {
          v := None;
        }
      }
      assert v == NextSlot(g, x, y, births((x, y)));
      column := column[y := v];
      y := y + 1;
    }
    r := Success(column);
  }

  /** `ApplyRules`: clear `nextGrid`, fill every slot from counts on `grid`
      only, then swap the two buffers. Whatever `nextGrid` held before
      does not matter. With an empty texture list the first birth throws
      before the swap. */
  method ApplyRules(b: Buffers, textureCount: nat, births: Pos -> Occupant) returns (r: Result<Buffers>)
    requires ValidBuffers(b)
    ensures r.Failure? <==> textureCount == 0 && HasBirth(b.grid)
    ensures r.Failure? ==> r.error == EmptyTextureList
    ensures r.Success? ==> ValidBuffers(r.value)
    ensures r.Success? ==> r.value.grid == Step(b.grid, births)
    ensures r.Success? ==> r.value.nextGrid == b.grid
  {
    var g := b.grid;
    var w, h := g.width, g.height;
    var next := EmptyGrid(w, h).slots;
    var x := 0;
    while x < w
      invariant 0 <= x <= w
      invariant |next| == w && forall i :: 0 <= i < w ==> |next[i]| == h
      invariant ColumnsDone(g, births, next, x)
      invariant textureCount == 0 ==> !BirthBefore(g, x)
    {
      var column := ApplyColumn(g, x, textureCount, births, next[x]);
      BirthBeforeStep(g, x);
      if column.Failure? {
        assert BirthBefore(g, x + 1);
        return Failure(column.error);
      }
      ColumnsDoneStep(g, births, next, x, column.value);
      next := next[x := column.value];
      x := x + 1;
    }
    assert HasBirth(g) == BirthBefore(g, w);
    StepFromColumns(g, births, next);
    r := Success(Buffers(Grid(w, h, next), g));
  }

  /** The first `x` columns of `next` hold the next value of their slots. */
  predicate ColumnsDone(g: Grid, births: Pos -> Occupant, next: seq<seq<Slot>>, x: int)
    requires Valid(g) && x <= g.width
    requires |next| == g.width && forall i :: 0 <= i < g.width ==> |next[i]| == g.height
  {
    forall i, j :: 0 <= i < x && 0 <= j < g.height ==> next[i][j] == NextSlot(g, i, j, births((i, j)))
  }

  lemma ColumnsDoneStep(g: Grid, births: Pos -> Occupant, next: seq<seq<Slot>>, x: int, column: seq<Slot>)
    requires Valid(g) && 0 <= x < g.width
    requires |next| == g.width && forall i :: 0 <= i < g.width ==> |next[i]| == g.height
    requires ColumnsDone(g, births, next, x)
    requires |column| == g.height
    requires forall j :: 0 <= j < g.height ==> column[j] == NextSlot(g, x, j, births((x, j)))
    ensures ColumnsDone(g, births, next[x := column], x + 1)
  {
  }

  /** Columns holding every slot's next value make up the step. */
  lemma StepFromColumns(g: Grid, births: Pos -> Occupant, next: seq<seq<Slot>>)
    requires Valid(g)
    requires |next| == g.width && forall i :: 0 <= i < g.width ==> |next[i]| == g.height
    requires ColumnsDone(g, births, next, g.width)
    ensures Grid(g.width, g.height, next) == Step(g, births)
  {
    var s := Step(g, births);
    assert |s.slots| == |next|;
    forall i | 0 <= i < g.width
      ensures s.slots[i] == next[i]
    {
    }
  }

  /** B3/S23 on the torus: on a grid of at least 3 x 3, a slot is occupied
      after a step iff the classic rule holds for it, counting its occupied
      torus neighbours before the step. */
  lemma StepIsLife(g: Grid, births: Pos -> Occupant, x: int, y: int)
    requires Valid(g) && g.width >= 3 && g.height >= 3
    requires 0 <= x < g.width && 0 <= y < g.height
    ensures Step(g, births).slots[x][y].Some?
        <==> LifeRule(g.slots[x][y].Some?, |LiveTorusNeighbours(g, x, y)|)
  {
    NeighbourCountIsTorusCount(g, x, y);
  }

  /** Survivors keep the identical occupant; an occupant not present before
      the step sits on a slot that was empty with exactly three live
      neighbours, and is the one created for that slot. */
  lemma StepOccupants(g: Grid, births: Pos -> Occupant, x: int, y: int)
    requires Valid(g) && 0 <= x < g.width && 0 <= y < g.height
    requires Step(g, births).slots[x][y].Some?
    ensures g.slots[x][y].Some? ==> Step(g, births).slots[x][y] == g.slots[x][y]
    ensures g.slots[x][y].None? ==>
      NeighbourCount(g, x, y) == 3 && Step(g, births).slots[x][y] == Some(births((x, y)))
  {
  }

  lemma {:induction false} CountOccupiedEmpty(g: Grid, ps: seq<Pos>)
    requires Valid(g) && forall i :: 0 <= i < |ps| ==> InGrid(g, ps[i])
    requires Live(g) == {}
    ensures CountOccupied(g, ps) == 0
    decreases |ps|
  {
    if |ps| > 0 {
      var last := ps[|ps| - 1];
      assert last !in Live(g);
      CountOccupiedEmpty(g, ps[..|ps| - 1]);
    }
  }

  /** No spontaneous generation: an empty grid stays empty. */
  lemma EmptyStaysEmpty(g: Grid, births: Pos -> Occupant)
    requires Valid(g) && Live(g) == {}
    ensures Live(Step(g, births)) == {}
  {
    var r := Step(g, births);
    forall x, y | 0 <= x < g.width && 0 <= y < g.height
      ensures r.slots[x][y].None?
    {
      assert (x, y) !in Live(g);
      CountOccupiedEmpty(g, NeighbourPositions(g, x, y));
    }
  }

  /** Whether `q` is one of the torus neighbours of `(x, y)`, spelled out. */
  predicate NearOnTorus(g: Grid, q: Pos, x: int, y: int) {
    InGrid(g, q) && q != (x, y) && Adjacent(q.0, x, g.width) && Adjacent(q.1, y, g.height)
  }

  function Bit(b: bool): nat {
    if b then 1 else 0
  }

  /** Taking out a value that is in the set exactly when its flag is set
      removes one element per set flag. */
  lemma RemoveFlagged<T>(t: set<T>, a: T, na: bool)
    requires a in t <==> na
    ensures |t| == |t - {a}| + Bit(na)
  {
    if !na {
      assert t - {a} == t;
    }
  }

  /** A set holding exactly those of three distinct values whose flag is
      set has one element per set flag. */
  lemma CardOfFlagged<T>(t: set<T>, a: T, b: T, c: T, na: bool, nb: bool, nc: bool)
    requires a != b && b != c && a != c
    requires forall q :: q in t <==> (q == a && na) || (q == b && nb) || (q == c && nc)
    ensures |t| == Bit(na) + Bit(nb) + Bit(nc)
  {
    var ta := t - {a};
    var tb := ta - {b};
    var tc := tb - {c};
    RemoveFlagged(t, a, na);
    RemoveFlagged(ta, b, nb);
    RemoveFlagged(tb, c, nc);
    assert tc == {};
  }

  lemma TorusMembership(g: Grid, q: Pos, x: int, y: int)
    ensures q in TorusNeighbours(g, x, y) <==> NearOnTorus(g, q, x, y)
  {
    if NearOnTorus(g, q, x, y) {
      var (nx, ny) := q;
      assert (nx, ny) in TorusNeighbours(g, x, y);
    }
  }

  lemma LiveMembership(g: Grid, q: Pos)
    requires Valid(g)
    ensures q in Live(g) <==> InGrid(g, q) && Occupied(g, q)
  {
    if InGrid(g, q) && Occupied(g, q) {
      var (qx, qy) := q;
      assert (qx, qy) in Live(g);
    }
  }

  /** The live torus neighbours of a slot when exactly three slots are live. */
  lemma CountAmongThree(g: Grid, a: Pos, b: Pos, c: Pos, x: int, y: int)
    requires Valid(g) && Live(g) == {a, b, c} && a != b && b != c && a != c
    ensures |LiveTorusNeighbours(g, x, y)|
         == Bit(NearOnTorus(g, a, x, y)) + Bit(NearOnTorus(g, b, x, y)) + Bit(NearOnTorus(g, c, x, y))
  {
    var t := LiveTorusNeighbours(g, x, y);
    var na, nb, nc := NearOnTorus(g, a, x, y), NearOnTorus(g, b, x, y), NearOnTorus(g, c, x, y);
    forall q
      ensures q in t <==> (q == a && na) || (q == b && nb) || (q == c && nc)
    {
      TorusMembership(g, q, x, y);
      LiveMembership(g, q);
    }
    CardOfFlagged(t, a, b, c, na, nb, nc);
  }

  /** The blinker: on a grid of at least 5 x 5 a horizontal line of three
      live slots becomes the vertical line through its centre — a slot is
      live after the step exactly when it is on that vertical line. */
  lemma BlinkerFlips(g: Grid, births: Pos -> Occupant, cx: int, cy: int)
    requires Valid(g) && g.width >= 5 && g.height >= 5
    requires 1 <= cx < g.width - 1 && 1 <= cy < g.height - 1
    requires Live(g) == {(cx - 1, cy), (cx, cy), (cx + 1, cy)}
    ensures forall q :: q in Live(Step(g, births)) <==> q in {(cx, cy - 1), (cx, cy), (cx, cy + 1)}
  {
    forall q
      ensures q in Live(Step(g, births)) <==> q in {(cx, cy - 1), (cx, cy), (cx, cy + 1)}
    {
      BlinkerLive(g, births, cx, cy, q);
    }
  }

  lemma BlinkerLive(g: Grid, births: Pos -> Occupant, cx: int, cy: int, q: Pos)
    requires Valid(g) && g.width >= 5 && g.height >= 5
    requires 1 <= cx < g.width - 1 && 1 <= cy < g.height - 1
    requires Live(g) == {(cx - 1, cy), (cx, cy), (cx + 1, cy)}
    ensures q in Live(Step(g, births)) <==> q in {(cx, cy - 1), (cx, cy), (cx, cy + 1)}
  {
    LiveMembership(Step(g, births), q);
    if InGrid(g, q) {
      BlinkerSlot(g, births, cx, cy, q.0, q.1);
    }
    VerticalLine(q, cx, cy);
  }

  lemma VerticalLine(q: Pos, cx: int, cy: int)
    ensures q in {(cx, cy - 1), (cx, cy), (cx, cy + 1)} <==> q.0 == cx && cy - 1 <= q.1 <= cy + 1
  {
    var (qx, qy) := q;
    if qx == cx && cy - 1 <= qy <= cy + 1 {
      if qy == cy - 1 {
        assert q == (cx, cy - 1);
      } else if qy == cy {
        assert q == (cx, cy);
      } else {
        assert q == (cx, cy + 1);
      }
    }
  }

  lemma BlinkerSlot(g: Grid, births: Pos -> Occupant, cx: int, cy: int, x: int, y: int)
    requires Valid(g) && g.width >= 5 && g.height >= 5
    requires 1 <= cx < g.width - 1 && 1 <= cy < g.height - 1
    requires Live(g) == {(cx - 1, cy), (cx, cy), (cx + 1, cy)}
    requires 0 <= x < g.width && 0 <= y < g.height
    ensures Step(g, births).slots[x][y].Some? <==> x == cx && cy - 1 <= y <= cy + 1
  {
    var occ := g.slots[x][y].Some?;
    LiveMembership(g, (x, y));
    assert occ <==> (x, y) in {(cx - 1, cy), (cx, cy), (cx + 1, cy)};
    assert occ <==> y == cy && cx - 1 <= x <= cx + 1;
    var n := |LiveTorusNeighbours(g, x, y)|;
    CountAmongThree(g, (cx - 1, cy), (cx, cy), (cx + 1, cy), x, y);
    BlinkerArith(g, cx, cy, x, y);
    assert LifeRule(occ, n) <==> x == cx && cy - 1 <= y <= cy + 1;
    StepIsLife(g, births, x, y);
  }

  /** The neighbour arithmetic of the blinker, slot by slot. */
  lemma BlinkerArith(g: Grid, cx: int, cy: int, x: int, y: int)
    requires g.width >= 5 && g.height >= 5
    requires 1 <= cx < g.width - 1 && 1 <= cy < g.height - 1
    requires 0 <= x < g.width && 0 <= y < g.height
    ensures LifeRule(y == cy && cx - 1 <= x <= cx + 1,
                     Bit(NearOnTorus(g, (cx - 1, cy), x, y)) + Bit(NearOnTorus(g, (cx, cy), x, y))
                     + Bit(NearOnTorus(g, (cx + 1, cy), x, y)))
        <==> x == cx && cy - 1 <= y <= cy + 1
  {
    if Adjacent(cy, y, g.height) {
      if x == cx {
      } else if x == cx - 1 || x == cx + 1 {
      } else {
      }
    }
  }

  // ---------------------------------------------------------------------
  // Sound-driven population

  lemma DeadMembership(g: Grid, q: Pos)
    requires Valid(g)
    ensures q in Dead(g) <==> InGrid(g, q) && !Occupied(g, q)
  {
    if InGrid(g, q) && !Occupied(g, q) {
      var (qx, qy) := q;
      assert (qx, qy) in Dead(g);
    }
  }

  /** `grid[p.x, p.y] = s`. */
  function SetSlot(g: Grid, p: Pos, s: Slot): (r: Grid)
    requires Valid(g) && InGrid(g, p)
    ensures Valid(r) && r.width == g.width && r.height == g.height
    ensures r.slots[p.0][p.1] == s
    ensures forall x, y :: 0 <= x < g.width && 0 <= y < g.height && (x, y) != p ==>
      r.slots[x][y] == g.slots[x][y]
  {
    Grid(g.width, g.height, g.slots[p.0 := g.slots[p.0][p.1 := s]])
  }

  /** Filling an empty slot adds it to the live set; clearing an occupied one removes it. */
  lemma LiveAfterSetSlot(g: Grid, p: Pos, s: Slot)
    requires Valid(g) && InGrid(g, p)
    ensures Live(SetSlot(g, p, s)) == if s.Some? then Live(g) + {p} else Live(g) - {p}
  {
    var r := SetSlot(g, p, s);
    forall q
      ensures q in Live(r) <==> q in (if s.Some? then Live(g) + {p} else Live(g) - {p})
    {
      LiveMembership(r, q);
      LiveMembership(g, q);
    }
  }

  /** `x` outer, `y` inner: column `x` in the order the collection loop visits it. */
  function Column(x: int, height: nat): (ps: seq<Pos>)
    ensures |ps| == height
    ensures forall j :: 0 <= j < height ==> ps[j] == (x, j)
  {
    seq(height, j => (x, j))
  }

  /** Every slot of a `width` x `height` grid in the order the collection loop visits them. */
  function AllPositions(width: nat, height: nat): (ps: seq<Pos>)
    ensures |ps| == width * height
    ensures forall p :: p in ps <==> 0 <= p.0 < width && 0 <= p.1 < height
    ensures Distinct(ps)
    decreases width
  {
    if width == 0 then []
    else
      var front := AllPositions(width - 1, height);
      var col := Column(width - 1, height);
      assert forall p: Pos :: p in col <==> p.0 == width - 1 && 0 <= p.1 < height by {
        forall p: Pos | p.0 == width - 1 && 0 <= p.1 < height
          ensures p in col
        {
          assert col[p.1] == p;
        }
      }
      assert (width - 1) * height + height == width * height;
      front + col
  }

  /** The test the collection loop applies: is the slot occupied. */
  function LiveAt(g: Grid): (f: Pos -> bool)
    requires Valid(g)
    ensures forall p :: f(p) <==> InGrid(g, p) && Occupied(g, p)
  {
    p => InGrid(g, p) && g.slots[p.0][p.1].Some?
  }

  function DeadAt(g: Grid): (f: Pos -> bool)
    requires Valid(g)
    ensures forall p :: f(p) <==> !(InGrid(g, p) && Occupied(g, p))
  {
    p => !(InGrid(g, p) && g.slots[p.0][p.1].Some?)
  }

  /** `liveCellsPositions` and `deadCellsPositions` of `AdjustCellPopulation`:
      the occupied and the empty slots, in visiting order. */
  function LivePositions(g: Grid): (ps: seq<Pos>)
    requires Valid(g)
    ensures Distinct(ps)
    ensures forall p :: p in ps <==> p in Live(g)
  {
    var all := AllPositions(g.width, g.height);
    FilterDistinct(all, LiveAt(g));
    assert forall p :: p in Live(g) <==> InGrid(g, p) && Occupied(g, p) by {
      forall p: Pos { LiveMembership(g, p); }
    }
    Filter(all, LiveAt(g))
  }

  function DeadPositions(g: Grid): (ps: seq<Pos>)
    requires Valid(g)
    ensures Distinct(ps)
    ensures forall p :: p in ps <==> p in Dead(g)
  {
    var all := AllPositions(g.width, g.height);
    FilterDistinct(all, DeadAt(g));
    assert forall p :: p in Dead(g) <==> InGrid(g, p) && !Occupied(g, p) by {
      forall p: Pos { DeadMembership(g, p); }
    }
    Filter(all, DeadAt(g))
  }

  /** Every slot is live or dead: the two lists together have `width * height`
      entries, and each is as long as its set. */
  lemma PositionCounts(g: Grid)
    requires Valid(g)
    ensures |LivePositions(g)| == |Live(g)|
    ensures |DeadPositions(g)| == |Dead(g)|
    ensures |Live(g)| + |Dead(g)| == g.width * g.height
  {
    var all := AllPositions(g.width, g.height);
    FilterSplit(all, LiveAt(g), DeadAt(g));
    SetOfList(LivePositions(g), Live(g));
    SetOfList(DeadPositions(g), Dead(g));
  }

  /** A duplicate-free list of exactly the members of `s` is as long as `s` is large. */
  lemma SetOfList(ps: seq<Pos>, s: set<Pos>)
    requires Distinct(ps) && forall p :: p in ps <==> p in s
    ensures |ps| == |s|
  {
    DistinctCard(ps);
    assert (set p | p in ps) == s;
  }

  /** `desiredLiveCells`: the intensity, read as a percentage, of the slot
      count, truncated toward zero by the `(int)` cast. */
  function DesiredLive(total: nat, soundIntensity: real): (d: int)
    ensures 0.0 <= soundIntensity <= 100.0 ==> 0 <= d <= total
    ensures soundIntensity < 0.0 ==> d <= 0
  {
    var v := total as real * (soundIntensity / 100.0);
    DesiredBounds(total, soundIntensity, v);
    Trunc(v)
  }

  lemma DesiredBounds(total: nat, s: real, v: real)
    requires v == total as real * (s / 100.0)
    ensures 0.0 <= s <= 100.0 ==> 0 <= Trunc(v) <= total
    ensures s < 0.0 ==> Trunc(v) <= 0
  {
    ScaleByPercent(total as real, s);
    TruncBounds(v, total);
  }

  lemma ScaleByPercent(t: real, s: real)
    requires 0.0 <= t
    ensures 0.0 <= s <= 100.0 ==> 0.0 <= t * (s / 100.0) <= t
    ensures s < 0.0 ==> t * (s / 100.0) <= 0.0
  {
    if 0.0 <= s <= 100.0 {
      assert s / 100.0 <= 1.0;
    }
  }

  /** At the constructor's intensity of 50 the target is half the slots, rounded down. */
  lemma HalfOfGrid(total: nat)
    ensures DesiredLive(total, 50.0) == total / 2
  {
    var q := total / 2;
    assert total == 2 * q || total == 2 * q + 1;
    assert total as real * (50.0 / 100.0) == total as real / 2.0;
  }

  /** Only kills happened: every slot is as before or was cleared. */
  predicate OnlyKills(g: Grid, r: Grid)
    requires Valid(g) && Valid(r) && r.width == g.width && r.height == g.height
  {
    forall x, y :: 0 <= x < g.width && 0 <= y < g.height ==>
      r.slots[x][y] == g.slots[x][y] || r.slots[x][y] == None
  }

  /** Only revivals happened: every occupant stays where it was, and a slot
      that changed was empty and now holds an occupant from `born`. */
  ghost predicate OnlyRevives(g: Grid, r: Grid, born: nat -> Occupant)
    requires Valid(g) && Valid(r) && r.width == g.width && r.height == g.height
  {
    forall x, y :: 0 <= x < g.width && 0 <= y < g.height ==>
      r.slots[x][y] == g.slots[x][y]
      || (g.slots[x][y] == None && exists i: nat :: r.slots[x][y] == Some(born(i)))
  }

  /** The kill loop of `AdjustCellPopulation`: up to `toKill` times, clear
      the slot at a randomly drawn index of the list of occupied slots and
      remove it from the list. */
  method KillCells(g: Grid, live: seq<Pos>, toKill: nat, pick: nat -> nat) returns (r: Grid)
    requires Valid(g) && Distinct(live) && forall p :: p in live <==> p in Live(g)
    requires |live| == |Live(g)|
    ensures Valid(r) && r.width == g.width && r.height == g.height
    ensures |Live(r)| == if toKill <= |Live(g)| then |Live(g)| - toKill else 0
    ensures OnlyKills(g, r)
  {
    r := g;
    var rest := live;
    var i := 0;
    while i < toKill && |rest| > 0
      invariant 0 <= i <= toKill
      invariant Valid(r) && r.width == g.width && r.height == g.height
      invariant Distinct(rest) && forall p :: p in rest <==> p in Live(r)
      invariant |rest| == |Live(r)| == |Live(g)| - i
      invariant OnlyKills(g, r)
    {
      var index := pick(i) % |rest|;
      var pos := rest[index];
      LiveMembership(r, pos);
      LiveAfterSetSlot(r, pos, None);
      RemoveAtDistinct(rest, index);
      r := SetSlot(r, pos, None);
      rest := RemoveAt(rest, index);
      i := i + 1;
    }
  }

  /** The revive loop of `AdjustCellPopulation`: up to `toRevive` times,
      place the new occupant `born(i)` on the slot at a randomly drawn index
      of the list of empty slots and remove it from the list. Each revival
      picks a texture from the list, which throws when the list is empty. */
  method ReviveCells(g: Grid, dead: seq<Pos>, toRevive: nat, textureCount: nat,
                     pick: nat -> nat, born: nat -> Occupant)
    returns (result: Result<Grid>)
    requires Valid(g) && Distinct(dead) && forall p :: p in dead <==> p in Dead(g)
    requires |dead| == |Dead(g)|
    ensures result.Failure? <==> textureCount == 0 && toRevive > 0 && |Dead(g)| > 0
    ensures result.Failure? ==> result.error == EmptyTextureList
    ensures result.Success? ==>
      var r := result.value;
      && Valid(r) && r.width == g.width && r.height == g.height
      && |Live(r)| == |Live(g)| + (if toRevive <= |Dead(g)| then toRevive else |Dead(g)|)
      && OnlyRevives(g, r, born)
  {
    var r := g;
    var rest := dead;
    var i := 0;
    while i < toRevive && |rest| > 0
      invariant 0 <= i <= toRevive
      invariant textureCount == 0 ==> i == 0
      invariant Valid(r) && r.width == g.width && r.height == g.height
      invariant Distinct(rest) && forall p :: p in rest <==> p in Dead(r)
      invariant |Live(r)| == |Live(g)| + i && |rest| == |Dead(g)| - i
      invariant OnlyRevives(g, r, born)
    {
      var index := pick(i) % |rest|;
      var pos := rest[index];
      if textureCount == 0 {
        return Failure(EmptyTextureList);
      }
      ReviveKeepsInvariant(g, r, rest, index, i, born);
      r := SetSlot(r, pos, Some(born(i)));
      rest := RemoveAt(rest, index);
      i := i + 1;
    }
    result := Success(r);
  }

  /** One revival keeps the loop's invariant, with one more slot filled. */
  lemma ReviveKeepsInvariant(g: Grid, r: Grid, rest: seq<Pos>, index: nat, i: nat, born: nat -> Occupant)
    requires Valid(g) && Valid(r) && r.width == g.width && r.height == g.height
    requires Distinct(rest) && forall p :: p in rest <==> p in Dead(r)
    requires |Live(r)| == |Live(g)| + i && |rest| == |Dead(g)| - i
    requires OnlyRevives(g, r, born)
    requires index < |rest|
    ensures InGrid(r, rest[index])
    ensures var r' := SetSlot(r, rest[index], Some(born(i)));
      var rest' := RemoveAt(rest, index);
      && Valid(r') && r'.width == g.width && r'.height == g.height
      && Distinct(rest') && (forall p :: p in rest' <==> p in Dead(r'))
      && |Live(r')| == |Live(g)| + i + 1 && |rest'| == |Dead(g)| - (i + 1)
      && OnlyRevives(g, r', born)
  {
    var pos := rest[index];
    DeadMembership(r, pos);
    LiveMembership(r, pos);
    LiveAfterSetSlot(r, pos, Some(born(i)));
    RemoveAtDistinct(rest, index);
    DeadAfterFill(r, pos, born(i));
    ReviveStep(g, r, pos, born, i);
  }

  lemma DeadAfterFill(g: Grid, p: Pos, o: Occupant)
    requires Valid(g) && InGrid(g, p)
    ensures Dead(SetSlot(g, p, Some(o))) == Dead(g) - {p}
  {
    var r := SetSlot(g, p, Some(o));
    forall q
      ensures q in Dead(r) <==> q in Dead(g) - {p}
    {
      DeadMembership(r, q);
      DeadMembership(g, q);
    }
  }

  lemma ReviveStep(g: Grid, r: Grid, p: Pos, born: nat -> Occupant, i: nat)
    requires Valid(g) && Valid(r) && r.width == g.width && r.height == g.height
    requires InGrid(r, p) && r.slots[p.0][p.1] == None
    requires OnlyRevives(g, r, born)
    ensures OnlyRevives(g, SetSlot(r, p, Some(born(i))), born)
  {
    var r' := SetSlot(r, p, Some(born(i)));
    forall x, y | 0 <= x < g.width && 0 <= y < g.height
      ensures r'.slots[x][y] == g.slots[x][y]
        || (g.slots[x][y] == None && exists j: nat :: r'.slots[x][y] == Some(born(j)))
    {
      if (x, y) == p {
        assert g.slots[x][y] == None;
        assert r'.slots[x][y] == Some(born(i));
      }
    }
  }

  /** `AdjustCellPopulation`: bring the number of occupied slots to the
      desired share of the grid by clearing randomly chosen occupied slots
      or filling randomly chosen empty ones with new occupants. `pick(i)` is
      the `i`-th draw of `random.Next`, reduced modulo the list length;
      `born(i)` is the occupant created by the `i`-th revival. A desired
      count outside `[0, width * height]` (an intensity outside `[0, 100]`)
      is cut short by the emptied list. Reviving with an empty texture list
      throws. */
  method AdjustCellPopulation(g: Grid, soundIntensity: real, textureCount: nat,
                              pick: nat -> nat, born: nat -> Occupant)
    returns (result: Result<Grid>)
    requires Valid(g)
    ensures result.Failure? <==>
      textureCount == 0 && |Live(g)| < DesiredLive(g.width * g.height, soundIntensity) && |Dead(g)| > 0
    ensures result.Failure? ==> result.error == EmptyTextureList
    ensures result.Success? ==>
      var r := result.value;
      && Valid(r) && r.width == g.width && r.height == g.height
      && |Live(r)| == ClampInt(DesiredLive(g.width * g.height, soundIntensity), 0, g.width * g.height)
      && (DesiredLive(g.width * g.height, soundIntensity) <= |Live(g)| ==> OnlyKills(g, r))
      && (|Live(g)| <= DesiredLive(g.width * g.height, soundIntensity) ==> OnlyRevives(g, r, born))
  {
    var desired := DesiredLive(g.width * g.height, soundIntensity);
    var live := LivePositions(g);
    var dead := DeadPositions(g);
    PositionCounts(g);
    var current := |live|;
    if current > desired {
      var r := Shrink(g, live, desired, pick);
      result := Success(r);
    } else if current < desired {
      result := Grow(g, dead, desired, textureCount, pick, born);
    } else {
      assert OnlyRevives(g, g, born);
      result := Success(g);
    }
  }

  /** The kill branch: above the target, clear down to it (to none when
      the target is negative). */
  method Shrink(g: Grid, live: seq<Pos>, desired: int, pick: nat -> nat) returns (r: Grid)
    requires Valid(g) && Distinct(live) && forall p :: p in live <==> p in Live(g)
    requires |live| == |Live(g)| && desired < |Live(g)|
    ensures Valid(r) && r.width == g.width && r.height == g.height
    ensures |Live(r)| == ClampInt(desired, 0, g.width * g.height)
    ensures OnlyKills(g, r)
  {
    PositionCounts(g);
    r := KillCells(g, live, |live| - desired, pick);
  }

  /** The revive branch: below the target, fill up to it (to every slot
      when the target exceeds the grid). */
  method Grow(g: Grid, dead: seq<Pos>, desired: int, textureCount: nat,
              pick: nat -> nat, born: nat -> Occupant)
    returns (result: Result<Grid>)
    requires Valid(g) && Distinct(dead) && forall p :: p in dead <==> p in Dead(g)
    requires |dead| == |Dead(g)| && |Live(g)| < desired
    ensures result.Failure? <==> textureCount == 0 && |Dead(g)| > 0
    ensures result.Failure? ==> result.error == EmptyTextureList
    ensures result.Success? ==>
      var r := result.value;
      && Valid(r) && r.width == g.width && r.height == g.height
      && |Live(r)| == ClampInt(desired, 0, g.width * g.height)
      && OnlyRevives(g, r, born)
  {
    PositionCounts(g);
    result := ReviveCells(g, dead, desired - |Live(g)|, textureCount, pick, born);
  }

  /** The `Layer` constructor: size the grid from the viewport, then fill
      it to half of its slots. Filling picks textures, so an empty texture
      list throws once the grid has at least two slots. */
  method NewLayer(viewportWidth: nat, viewportHeight: nat, cellSize: real, textureCount: nat,
                  pick: nat -> nat, born: nat -> Occupant)
    returns (r: Result<Grid>)
    requires cellSize > 0.0
    ensures cellSize < 1.0 ==> r == Failure(DivideByZero)
    ensures cellSize >= 1.0 ==>
      && GridDims(viewportWidth, viewportHeight, cellSize).Success?
      && var d := GridDims(viewportWidth, viewportHeight, cellSize).value;
         (r.Failure? <==> textureCount == 0 && d.width * d.height >= 2)
    ensures cellSize >= 1.0 && r.Failure? ==> r.error == EmptyTextureList
    ensures r.Success? ==>
      && Valid(r.value)
      && GridDims(viewportWidth, viewportHeight, cellSize) == Success(Dims(r.value.width, r.value.height))
      && |Live(r.value)| == (r.value.width * r.value.height) / 2
  {
    var init := InitializeGrid(viewportWidth, viewportHeight, cellSize);
    if init.Failure? {
      return Failure(init.error);
    }
    var g := init.value;
    HalfOfGrid(g.width * g.height);
    PositionCounts(g);
    r := AdjustCellPopulation(g, 50.0, textureCount, pick, born);
  }
}

=== FILE: numerics.dfy ===
/** The C# numeric conversions and operators the engines rely on, written out
    over Dafny's unbounded integers and exact reals. */
module Numerics {

  /** The C# cast `(int)v` of a floating-point value: truncation toward zero. */
  function Trunc(v: real): (r: int)
    ensures 0.0 <= v ==> r as real <= v < r as real + 1.0
    ensures v < 0.0 ==> r as real - 1.0 < v <= r as real
    ensures -1.0 < v ==> 0 <= r
    ensures v <= -1.0 ==> r < 0
  {
    if v >= 0.0 then v.Floor else -((-v).Floor)
  }

  /** Truncating a value in [0, n] stays in [0, n]; truncating a value
      that is not positive gives a result that is not positive. */
  lemma TruncBounds(v: real, n: nat)
    ensures 0.0 <= v <= n as real ==> 0 <= Trunc(v) <= n
    ensures v <= 0.0 ==> Trunc(v) <= 0
  {
  }

  /** The C# remainder `a % n` for a positive divisor: it takes the sign of
      the dividend, unlike Dafny's Euclidean `%`. */
  function CsRem(a: int, n: int): (r: int)
    requires n > 0
    ensures 0 <= a ==> 0 <= r < n
    ensures a < 0 ==> -n < r <= 0
    ensures (a - r) % n == 0
  {
    if a >= 0 then
      DivMod(a, n);
      ModUnique(a - a % n, n, a / n, 0);
      a % n
    else
      DivMod(-a, n);
      ModUnique(a + (-a) % n, n, -((-a) / n), 0);
      -((-a) % n)
  }

  /** Dafny's division and remainder with a positive divisor. */
  lemma DivMod(a: int, n: int)
    requires n > 0
    ensures a == (a / n) * n + a % n && 0 <= a % n < n
  {
  }

  /** Euclidean quotient and remainder are unique. */
  lemma ModUnique(a: int, n: int, q: int, r: int)
    requires n > 0 && 0 <= r < n && a == q * n + r
    ensures a % n == r && a / n == q
  {
    var q0, r0 := a / n, a % n;
    DivMod(a, n);
    assert (q - q0) * n == r0 - r;
    if q > q0 {
      MulAtLeast(q - q0, n);
    } else if q < q0 {
      MulAtLeast(q0 - q, n);
    }
  }

  lemma MulAtLeast(m: int, n: int)
    requires m >= 1 && n > 0
    ensures m * n >= n
  {
    assert m * n == (m - 1) * n + n;
  }

  /** `n` steps of size `a`, added one at a time. */
  function Steps(n: nat, a: real): real {
    if n == 0 then 0.0 else Steps(n - 1, a) + a
  }

  lemma {:induction false} StepsProduct(n: nat, a: real)
    ensures Steps(n, a) == n as real * a
  {
    if n > 0 {
      StepsProduct(n - 1, a);
      assert (n - 1) as real * a + a == n as real * a;
    }
  }

  /** `MathHelper.Clamp` on reals. */
  function ClampReal(v: real, lo: real, hi: real): (r: real)
    requires lo <= hi
    ensures lo <= r <= hi
    ensures lo <= v <= hi ==> r == v
    ensures v < lo ==> r == lo
    ensures hi < v ==> r == hi
  {
    if v < lo then lo else if v > hi then hi else v
  }

  /** Integer clamp into `[lo, hi]`; on whole numbers it agrees with the
      real clamp. */
  function ClampInt(v: int, lo: int, hi: int): (r: int)
    requires lo <= hi
    ensures r as real == ClampReal(v as real, lo as real, hi as real)
    ensures lo <= r <= hi
    ensures lo <= v <= hi ==> r == v
    ensures v < lo ==> r == lo
    ensures hi < v ==> r == hi
  {
    if v < lo then lo else if v > hi then hi else v
  }

  /** `MathHelper.Lerp(a, b, t)`. */
  function Lerp(a: real, b: real, t: real): real {
    a + (b - a) * t
  }
}

=== FILE: seqs.dfy ===
/** Sequence helpers shared by both engines: order-preserving filtering,
    duplicate-freedom and counting. */
module Seqs {

  /** No element occurs twice. */
  predicate Distinct<T(==)>(s: seq<T>) {
    forall i, j :: 0 <= i < j < |s| ==> s[i] != s[j]
  }

  /** The elements of `s` satisfying `p`, in their original order (LINQ `Where`,
      `List.FindAll`). */
  function Filter<T(!new)>(s: seq<T>, p: T -> bool): (r: seq<T>)
    ensures |r| <= |s|
    ensures forall x :: x in r <==> x in s && p(x)
    ensures forall x :: multiset(r)[x] == if p(x) then multiset(s)[x] else 0
  {
    if |s| == 0 then []
    else
      var rest := Filter(s[..|s| - 1], p);
      assert s == s[..|s| - 1] + [s[|s| - 1]];
      if p(s[|s| - 1]) then rest + [s[|s| - 1]] else rest
  }

  lemma {:induction false} FilterConcat<T(!new)>(a: seq<T>, b: seq<T>, p: T -> bool)
    ensures Filter(a + b, p) == Filter(a, p) + Filter(b, p)
    decreases |b|
  {
    if |b| == 0 {
      assert a + b == a;
    } else {
      var b' := b[..|b| - 1];
      assert (a + b)[..|a + b| - 1] == a + b';
      FilterConcat(a, b', p);
    }
  }

  lemma {:induction false} FilterDistinct<T(!new)>(s: seq<T>, p: T -> bool)
    requires Distinct(s)
    ensures Distinct(Filter(s, p))
    decreases |s|
  {
    if |s| > 0 {
      FilterDistinct(s[..|s| - 1], p);
    }
  }

  /** A duplicate-free sequence has as many elements as its set. */
  lemma {:induction false} DistinctCard<T>(s: seq<T>)
    requires Distinct(s)
    ensures |set x | x in s| == |s|
    decreases |s|
  {
    if |s| > 0 {
      var s' := s[..|s| - 1];
      DistinctCard(s');
      var last := s[|s| - 1];
      assert (set x | x in s) == (set x | x in s') + {last};
      assert last !in (set x | x in s');
    }
  }

  /** The first occurrence of each element, in order of first appearance:
      the key order of a .NET Dictionary that is only ever added to. */
  function Dedupe<T(==,!new)>(s: seq<T>): (r: seq<T>)
    ensures Distinct(r)
    ensures forall x :: x in r <==> x in s
    decreases |s|
  {
    if |s| == 0 then []
    else
      var rest := Dedupe(s[..|s| - 1]);
      var last := s[|s| - 1];
      assert s == s[..|s| - 1] + [last];
      if last in rest then rest else rest + [last]
  }

  /** `|Filter(s, p)| + |Filter(s, !p)| == |s|`: a filter and its complement split the sequence. */
  lemma {:induction false} FilterSplit<T(!new)>(s: seq<T>, p: T -> bool, q: T -> bool)
    requires forall x :: q(x) == !p(x)
    ensures |Filter(s, p)| + |Filter(s, q)| == |s|
    decreases |s|
  {
    if |s| > 0 {
      FilterSplit(s[..|s| - 1], p, q);
    }
  }

  /** `List.RemoveAt(i)`. */
  function RemoveAt<T>(s: seq<T>, i: nat): (r: seq<T>)
    requires i < |s|
    ensures |r| == |s| - 1
    ensures forall j :: 0 <= j < i ==> r[j] == s[j]
    ensures forall j :: i <= j < |r| ==> r[j] == s[j + 1]
  {
    s[..i] + s[i + 1..]
  }

  lemma RemoveAtDistinct<T>(s: seq<T>, i: nat)
    requires i < |s| && Distinct(s)
    ensures Distinct(RemoveAt(s, i))
    ensures forall x :: x in RemoveAt(s, i) <==> x in s && x != s[i]
  {
    var r := RemoveAt(s, i);
    forall x | x in s && x != s[i]
      ensures x in r
    {
      var j :| 0 <= j < |s| && s[j] == x;
      if j < i {
        assert r[j] == x;
      } else {
        assert r[j - 1] == x;
      }
    }
  }

  /** In a duplicate-free sequence every element occurs once. */
  lemma {:induction false} DistinctMultiplicity<T>(s: seq<T>, x: T)
    requires Distinct(s)
    ensures multiset(s)[x] == if x in s then 1 else 0
    decreases |s|
  {
    if |s| > 0 {
      var s' := s[..|s| - 1];
      assert s == s' + [s[|s| - 1]];
      DistinctMultiplicity(s', x);
    }
  }

  /** Filtering with a test every element passes changes nothing. */
  lemma {:induction false} FilterAll<T(!new)>(s: seq<T>, p: T -> bool)
    requires forall x :: x in s ==> p(x)
    ensures Filter(s, p) == s
    decreases |s|
  {
    if |s| > 0 {
      var front, last := s[..|s| - 1], s[|s| - 1];
      assert s == front + [last];
      assert forall x :: x in front ==> x in s;
      FilterAll(front, p);
      FilterSnoc(front, last, p);
    }
  }

  /** `List.Remove(x)`: drop the first occurrence of `x`, if any. */
  function RemoveFirst<T(==)>(s: seq<T>, x: T): (r: seq<T>)
    ensures x in s ==> multiset(r) == multiset(s) - multiset{x}
    ensures x !in s ==> r == s
    decreases |s|
  {
    if |s| == 0 then []
    else if s[0] == x then
      assert s == [s[0]] + s[1..];
      s[1..]
    else
      assert s == [s[0]] + s[1..];
      [s[0]] + RemoveFirst(s[1..], x)
  }

  /** Removing an element the filter rejects does not change the filter's result. */
  lemma {:induction false} FilterRemoveFirst<T(!new)>(s: seq<T>, x: T, p: T -> bool)
    requires !p(x)
    ensures Filter(RemoveFirst(s, x), p) == Filter(s, p)
    decreases |s|
  {
    if |s| > 0 {
      var head, tail := s[0], s[1..];
      assert s == [head] + tail;
      var front: seq<T> := if p(head) then [head] else [];
      FilterCons(head, tail, p);
      assert Filter(s, p) == front + Filter(tail, p);
      if head == x {
        assert RemoveFirst(s, x) == tail;
        assert front == [];
      } else {
        var rest := RemoveFirst(tail, x);
        assert RemoveFirst(s, x) == [head] + rest;
        FilterCons(head, rest, p);
        FilterRemoveFirst(tail, x, p);
        assert Filter(rest, p) == Filter(tail, p);
      }
    } else {
      assert RemoveFirst(s, x) == s;
    }
  }

  lemma FilterCons<T(!new)>(h: T, t: seq<T>, p: T -> bool)
    ensures Filter([h] + t, p) == (if p(h) then [h] else []) + Filter(t, p)
  {
    FilterConcat([h], t, p);
    FilterSingle(h, p);
  }

  lemma FilterSingle<T(!new)>(x: T, p: T -> bool)
    ensures Filter([x], p) == if p(x) then [x] else []
  {
    assert [x][..0] == [];
  }

  lemma FilterSnoc<T(!new)>(s: seq<T>, x: T, p: T -> bool)
    ensures Filter(s + [x], p) == Filter(s, p) + if p(x) then [x] else []
  {
    assert (s + [x])[..|s|] == s;
  }

  /** Appending the same element to two lists whose filtered forms differ by
      a suffix that is empty whenever the element passes. */
  lemma FilterShift<T(!new)>(a: seq<T>, b: seq<T>, x: T, tail: seq<T>, p: T -> bool)
    requires Filter(a, p) == Filter(b, p) + tail
    requires p(x) ==> tail == []
    ensures Filter(a + [x], p) == Filter(b + [x], p) + tail
  {
    FilterSnoc(a, x, p);
    FilterSnoc(b, x, p);
    if p(x) {
      assert Filter(a, p) == Filter(b, p) by {
        assert Filter(b, p) + tail == Filter(b, p);
      }
      assert Filter(b + [x], p) + tail == Filter(b + [x], p);
    } else {
      assert Filter(a + [x], p) == Filter(a, p);
      assert Filter(b + [x], p) == Filter(b, p);
    }
  }

  /** Adding a fresh element to a set grows its intersection with `t` by one
      exactly when the element is in `t`. */
  lemma IntersectAddFresh<T>(s: set<T>, x: T, t: set<T>)
    requires x !in s
    ensures |(s + {x}) * t| == |s * t| + if x in t then 1 else 0
  {
    if x in t {
      assert (s + {x}) * t == (s * t) + {x};
    } else {
      assert (s + {x}) * t == s * t;
    }
  }
}

=== FILE: wrappers.dfy ===
/** Failure-carrying results for the operations that throw in the C# program. */
module Wrappers {

  datatype Option<+T> = None | Some(value: T)

  /** Why an operation of the program would throw instead of returning. */
  datatype Error =
    | NullOrEmptyTextures   // ArgumentException from the GameOfLife constructor
    | NullInitialCells      // ArgumentNullException from GameOfLife.Initialize
    | DivideByZero          // integer division or remainder by a zero grid dimension
    | EmptyTextureList      // indexing an empty texture list (ArgumentOutOfRangeException)

  datatype Result<+T> = Success(value: T) | Failure(error: Error)
}
